=== FILE: README.md ===
# Snake controller: a Dafny model of `SnakeProBrain`

This project models the controller of a grid snake game. It covers:

- the breadth-first search that finds the nearest food;
- the second search that turns the found food into the snake's next step;
- the advance of the snake onto a cell (collide, eat or move);
- the per-frame schedule of snake moves and food additions;
- the frame counter;
- the mapping from typed characters to commands;
- the source's recursive list reversal.

The board is a `rows × cols` grid of cells. Each cell holds exactly one tag: `Empty`, `Wall`, `Head`, `Body` or `Food`. The snake is a head-first sequence of coordinates. Each search keeps a FIFO queue plus the set of cells already added to it.

Modules, in dependency order:

- `Grid`: coordinates, adjacency, the N/E/S/W direction vectors, the board and its single-cell update.
- `Lists`: duplicate-freedom, the source's recursive list reversal, and `Option`, which stands for a possibly-null cell.
- `Reach`: a reference notion of hop distance that knows nothing about queues.
  - `Within(b, s, k, c)` says `c` can be reached from `s` in at most `k` steps.
  - A step may leave only an on-board cell that is neither wall nor body.
  - `Level` is the exact distance. Explicit walks are tied to both.
- `Search`: the search loop as a recursive function over (queue, marks).
  - `AddCellToQueue`/`ScanNeighbours` are the neighbour scan exactly as the source's loop runs it, with marks updated as it goes. `ScanFrom` is a reference filter to compare against.
  - `Start` is the reset of the marks before a search, with the start cell marked and enqueued (SnakeProBrain.java:281-284 and :333-335).
  - `IsGoal` is the stop test: a food cell for the first search (:296), a cell next to the head that is neither head nor body for the second (:344); walls are dropped by the skip test before it (:342).
  - `SearchStep` is one dequeue, and `Bfs` runs the loop to the end.
- `SearchProof`: the layered queue invariant. From it follows that the search returns a nearest goal, and returns nothing exactly when no goal can be reached.
- `Brain`: the game state and the controller's operations.
- `BrainProof`: the controller's guarantees:
  - the autopilot takes the first step of a shortest path to the nearest food;
  - the snake and the board stay in agreement through every operation;
  - the food is counted correctly;
  - the frame schedule and the key mapping do what they say.

## Model

| member | source | states |
|---|---|---|
| Grid.Neighbour | src/main/java/Controller/SnakeProBrain.java:44-45 | the cell in scan direction `i` (North, East, South, West) is horizontally or vertically adjacent to `c`, in both argument orders |
| Lists.ReverseList | src/main/java/Controller/SnakeProBrain.java:222-228 | the reversal keeps the length and puts element `i` at position `n - 1 - i` |
| Lists.ReversePreservesNoDup | src/main/java/Controller/SnakeProBrain.java:222-228 | reversing a duplicate-free list gives a duplicate-free list with the same elements |
| Search.IsCellAdjacentToHead | src/main/java/Controller/SnakeProBrain.java:230-239 | true exactly when the cell is neither body nor head and differs from the head by one in exactly one of row and column |
| Search.IsCellValid | src/main/java/Controller/SnakeProBrain.java:241-247 | true exactly when the coordinate is on the board and not yet added to the search |
| Search.ScanFromMembers | src/main/java/Controller/SnakeProBrain.java:250-264 | the neighbour filter from direction `i` on keeps exactly the on-board, unmarked neighbours whose scan direction is at least `i` |
| Search.ScanNeighbours | src/main/java/Controller/SnakeProBrain.java:250-264 | the loop that re-checks each neighbour against marks updated by the earlier directions enqueues the same cells, in the same order, as the filter against the marks from before the scan |
| Search.AddCellToQueue | src/main/java/Controller/SnakeProBrain.java:250-264 | the queue keeps its cells and gains, each once, exactly the on-board neighbours not yet marked; the marks grow by exactly those cells |
| Search.SearchStep | src/main/java/Controller/SnakeProBrain.java:291-305 | one dequeue stops at an open goal, or drops the cell, or expands it; the queue stays duplicate-free with every queued cell marked, and the work left drops by exactly one |
| Search.Bfs | src/main/java/Controller/SnakeProBrain.java:291-305 | a returned cell is on the board, neither wall nor body, and a goal |
| Search.SearchBounded | src/main/java/Controller/SnakeProBrain.java:281-305 | a search started from a board cell dequeues at most `rows * cols` cells |
| SearchProof.LayeredResult | src/main/java/Controller/SnakeProBrain.java:291-305 | from any state satisfying the layered queue invariant, the loop answers with a nearest goal, or with nothing only when no goal can be reached |
| SearchProof.BfsFindsNearestGoal | src/main/java/Controller/SnakeProBrain.java:274-305 | a search returns a goal at least distance from the start (no goal is strictly closer); it returns nothing exactly when no goal can be reached |
| SearchProof.NearestWithin | src/main/java/Controller/SnakeProBrain.java:274-305 | when some goal is within `k` steps the search succeeds, and its goal is at most `k` steps away |
| Brain.JavaRem | src/main/java/Controller/SnakeProBrain.java:165 | Java's `%`: smaller than the divisor in magnitude, with the sign of the dividend, zero exactly when the divisor divides the dividend, and differing from the dividend by a multiple of the divisor, which pins the value |
| Brain.IntInc | src/main/java/Controller/SnakeProBrain.java:110 | Java's `int` increment: stays in range, equals `x + 1` modulo 2^32, and equals `x + 1` below the maximum |
| Brain.NextCellInDir | src/main/java/Controller/SnakeProBrain.java:169-171 | the cell ahead is the head moved by the current direction's row and column vectors, adjacent to the head and on the board; there is none exactly when that cell is off the board |
| Brain.RandomNeighbour | src/main/java/Controller/SnakeProBrain.java:307-308 | a chosen cell is an on-board neighbour of the head; there is none exactly when no neighbour is on the board |
| Brain.FirstSearch | src/main/java/Controller/SnakeProBrain.java:274-305 | the first search from the head returns only a food cell on the board |
| Brain.GetFirstCellInPath | src/main/java/Controller/SnakeProBrain.java:330-356 | the second search, from the food, returns only an on-board cell next to the head that is not wall, body or head |
| Brain.NextCellFromBFS | src/main/java/Controller/SnakeProBrain.java:307-310 | the autopilot's next cell is an on-board neighbour of the head |
| BrainProof.NextCellFromBfsCorrect | src/main/java/Controller/SnakeProBrain.java:274-356 | when food can be reached, the first search returns a nearest food `d >= 1` steps away, and the step returned is open, next to the head and exactly `d - 1` steps from it, i.e. the second cell of a shortest walk; otherwise no food is reachable and the step is the random neighbour |
| BrainProof.SecondSearchStep | src/main/java/Controller/SnakeProBrain.java:330-356 | for food at distance `d` from the head, the second search returns a cell `d - 1` steps from the food that starts a shortest walk from the head to the food |
| BrainProof.AdjacentFoodIsTaken | src/main/java/Controller/SnakeProBrain.java:339-347 | with food next to the head, the nearest food is adjacent and the autopilot steps straight onto it |
| BrainProof.RandomNeighbourCovers | src/main/java/Controller/SnakeProBrain.java:307-308 | every on-board neighbour of the head is the fallback step for some random choice |
| Brain.AdvanceTheSnake | src/main/java/Controller/SnakeProBrain.java:186-204 | into wall or body the game ends with snake and board unchanged; onto food the new head is prepended and the length grows by one; otherwise the new head is prepended, the tail dropped and its cell left empty, length unchanged; the board keeps its size |
| Brain.EatBoard | src/main/java/Controller/SnakeProBrain.java:192-197 | eating marks the old head as body and the food cell as head, and changes no other cell |
| Brain.MoveBoard | src/main/java/Controller/SnakeProBrain.java:198-203 | a plain move marks the old head as body and the target as head, empties the old tail cell, and changes no other cell |
| BrainProof.AdvanceKeepsWalls | src/main/java/Controller/SnakeProBrain.java:186-204 | advancing a consistent snake neither builds nor removes a wall anywhere on the board |
| BrainProof.AdvanceKeepsConsistent | src/main/java/Controller/SnakeProBrain.java:186-204 | advancing onto a neighbour of the head keeps the snake's cells distinct and chained, the head cell marked head, the rest body, and no head or body mark off the snake |
| BrainProof.AdvanceTouchesThreeCells | src/main/java/Controller/SnakeProBrain.java:186-204 | an advance changes no cell other than the old head, the new head and the old tail |
| BrainProof.EatRemovesFood | src/main/java/Controller/SnakeProBrain.java:192-197 | eating removes exactly the eaten cell from the food cells and lengthens the snake by one |
| BrainProof.MoveKeepsFood | src/main/java/Controller/SnakeProBrain.java:198-204 | a plain move leaves the set of food cells and the snake's length unchanged |
| Brain.ReverseSnake | src/main/java/Controller/SnakeProBrain.java:359-368 | the snake's cells come in reverse order, the new first cell is marked head, and the direction points from the new second cell to the new head (kept for a one-cell snake); the mode, the game-over flag and the counter are unchanged |
| BrainProof.ReverseHeadsAway | src/main/java/Controller/SnakeProBrain.java:359-368 | after a consistent snake turns around, the cell ahead of the new head is never its own second cell |
| BrainProof.ReverseKeepsConsistent | src/main/java/Controller/SnakeProBrain.java:363-368 | turning the snake around keeps the snake and the board in agreement |
| BrainProof.ReverseReverse | src/main/java/Controller/SnakeProBrain.java:363-368 | turning a consistent snake around twice gives back the same snake, board, mode, flag and counter, and the direction then points the way the original head faced |
| Brain.UpdateSnake | src/main/java/Controller/SnakeProBrain.java:164-174 | off the refresh beat the game is unchanged; direction, mode and counter never change |
| BrainProof.SnakeGating | src/main/java/Controller/SnakeProBrain.java:164-174 | the snake moves only when `refreshRate` divides the frame number; it then advances onto the autopilot's step in AI mode or onto the cell ahead otherwise, and without a next cell the game ends |
| BrainProof.UpdateSnakeKeepsConsistent | src/main/java/Controller/SnakeProBrain.java:164-174 | a frame's snake step keeps the snake and the board in agreement |
| Brain.AddFood | src/main/java/Controller/SnakeProBrain.java:216-218 | with no empty cell the board is unchanged; otherwise exactly one empty cell becomes food |
| BrainProof.AddFoodCovers | src/main/java/Controller/SnakeProBrain.java:216-218 | every empty cell is where food lands for some random choice |
| BrainProof.AddFoodCount | src/main/java/Controller/SnakeProBrain.java:216-218 | with an empty cell on the board, adding food makes exactly one more food cell |
| BrainProof.NoFoodIsEmpty | src/main/java/Controller/SnakeProBrain.java:215 | the board has no food exactly when its set of food cells is empty |
| Brain.UpdateFood | src/main/java/Controller/SnakeProBrain.java:214-220 | only the board changes, keeping its size; with no food, or on the `foodAddRate` beat, food is added; with food present off the beat the game is unchanged |
| BrainProof.FoodGating | src/main/java/Controller/SnakeProBrain.java:214-220 | food is added when there is none and otherwise exactly when `foodAddRate` divides the frame number; otherwise the game is unchanged |
| BrainProof.UpdateFoodKeepsConsistent | src/main/java/Controller/SnakeProBrain.java:214-220 | adding food never touches a head or body cell, so the snake and the board stay in agreement |
| Brain.Cycle | src/main/java/Controller/SnakeProBrain.java:95-111 | a frame keeps the game well-formed, keeps direction and mode, and advances the counter by one with `int` wrap-around; that the snake step comes before the food step is stated by `BrainProof.FrameEndsWithFood` |
| BrainProof.FrameEndsWithFood | src/main/java/Controller/SnakeProBrain.java:98-101 | the snake moves before the food is updated, so a frame never ends without food while an empty cell remains, even after the snake eats the last food |
| BrainProof.CycleKeepsConsistent | src/main/java/Controller/SnakeProBrain.java:95-111 | a whole frame (snake step, food step, count) keeps the snake and the board in agreement, and the counter goes up by exactly one below the `int` maximum |
| BrainProof.QuietFrame | src/main/java/Controller/SnakeProBrain.java:95-111 | on a frame off both beats with food on the board, only the counter changes |
| Brain.KeyCommand | src/main/java/Controller/SnakeProBrain.java:35-41 | `q`, `r`, `f`, `w`, `s`, `a` each map to their own command and nothing else does; `d` and every unlisted character steer East |
| Brain.KeyPressed | src/main/java/Controller/SnakeProBrain.java:123-154 | `q` sets AI mode and no other key changes the mode; `f` changes nothing; `r` turns the snake around; a steering key only sets the direction |
| BrainProof.AIKeyIdempotent | src/main/java/Controller/SnakeProBrain.java:145-147 | the AI key sets the mode rather than toggling it: pressing it twice is pressing it once |
| BrainProof.KeysLeaveBoard | src/main/java/Controller/SnakeProBrain.java:123-154 | no key other than `r` touches the board, the snake, the game-over flag or the counter |
| BrainProof.KeyKeepsConsistent | src/main/java/Controller/SnakeProBrain.java:123-154 | every key press keeps the snake and the board in agreement |

## Left out

- Sounds, rendering and repainting are left out. They are output to external collaborators and change no game state. The food-noise key is therefore a no-op.
- `startNewGame` is left out, including its 200 ms sleep. So is the timer pause in `gameOver`. The model keeps game over as a flag only. `Cycle` does not refuse to run on a finished game, because in the source the paused timer stops the frames.
- Randomness is left out. `getRandomNeighboringCell` and `addFood` belong to `SnakeProData`, which is not part of this model. Their random choice is a `pick` parameter:
  - the fallback step picks among the on-board neighbours in scan order;
  - food lands on a picked empty cell in row-major order.
- `getNextCellInDir` is also in `SnakeProData`. It is modelled as the on-board neighbour in the current direction, or nothing.
- `becomeBody`, `appendHead` and `removeTail` belong to `SnakeProData`, which is not part of this model. They are modelled as marking the old head body, marking the new head head and putting it first, and dropping the last cell and marking it empty (`Brain.EatBoard`, `Brain.MoveBoard`).
- A missing next cell ends the game. In the source a null next cell would be dereferenced by `advanceTheSnake`.
- `SnakeProData.reverse` is not part of this model. `ReverseSnake` uses the recursive list reversal, marks the old head as body and the new head as head.
- Brain.ReverseSnake: the Javadoc at SnakeProBrain.java:359-362 promises only that the movement mode is updated "appropriately". The model reads this as pointing the direction from the new second cell to the new head, so a manual snake moves away from its own body after a reverse. The exact rule inside `SnakeProData` is an assumption. A one-cell snake, or one whose last two cells are not adjacent, keeps its direction. The AI mode is left as it is.
- Brain.KeyPressed: the mode and the direction are separate fields, so a steering key changes only the direction and never leaves AI mode. The source shows only calls into `SnakeProData` (`setDirectionNorth` and the others at SnakeProBrain.java:131-140, `setMode_AI` at :146, `inAImode` at :167), which is not part of this model. If that class keeps one "movement mode" of which AI is one value, as the Javadoc at :360-361 suggests, then a steering key would also end AI mode, and this model does not capture that.
- `REFRESH_RATE` and `FOOD_ADD_RATE` live in `Preferences`, which is not part of this model. They are the fields of `Config` and must be non-zero, as the source divides by them.
- Coordinates are unbounded integers. Java `int` overflow of row and column arithmetic cannot happen on a board of sensible size.
- Brain.AdvanceTheSnake: its "the new head cell is marked head" clause is stated only when the target is not the tail cell. On a consistent snake the target can never be the tail, and `BrainProof.AdvanceKeepsConsistent` states the full property there.
- BrainProof.NextCellFromBfsCorrect: requires that the head is the only head cell on the board. The source assumes a consistent board, and `BrainProof.ConsistentHead` derives this from consistency.
- `getFirstCellInPath`'s Javadoc (SnakeProBrain.java:316-321) speaks of following parent pointers. The code runs a second breadth-first search from the food instead, and the model follows the code.

=== FILE: Brain.dfy ===
/** The snake's controller: the game state, the two-search pathfinder, the
    advance of the snake, the per-frame schedule and the key mapping. */
module Brain {
  import opened Grid
  import opened Lists
  import opened Search

  datatype Direction = North | East | South | West
  datatype Mode = Manual | AI

  /** The range of a Java `int`. */
  const IntMin: int := -0x8000_0000
  const IntMax: int := 0x7fff_ffff

  predicate IsInt(x: int)
  {
    IntMin <= x <= IntMax
  }

  /** The controller's state: the board, the snake head first, the current
      direction and mode, whether the game is over, and the frame counter. */
  datatype Game = Game(board: Board, snake: seq<Coord>, dir: Direction, mode: Mode, over: bool, cycleNum: int)

  /** The pacing preferences: the snake moves every `refreshRate` frames and
      food is added every `foodAddRate` frames. Both are used as divisors. */
  datatype Config = Config(refreshRate: int, foodAddRate: int)

  predicate ValidConfig(cfg: Config)
  {
    cfg.refreshRate != 0 && cfg.foodAddRate != 0
  }

  /** What every operation needs to be defined: a well-formed board, a
      snake of at least one cell, every snake cell on the board, and a
      frame counter in the `int` range. */
  predicate Shaped(g: Game)
  {
    && g.board.Valid()
    && |g.snake| >= 1
    && (forall i :: 0 <= i < |g.snake| ==> g.board.InBounds(g.snake[i]))
    && IsInt(g.cycleNum)
  }

  /* ---------------- Java arithmetic ---------------- */

  lemma MulAtLeast(k: int, m: int)
    requires k != 0
    ensures Abs(k * m) >= Abs(m)
    decreases Abs(k), if k < 0 then 1 else 0
  {
    if k > 0 {
      if k > 1 {
        MulAtLeast(k - 1, m);
        assert k * m == (k - 1) * m + m;
      }
    } else {
      MulAtLeast(-k, m);
      assert k * m == -((-k) * m);
    }
  }

  /** Euclidean division has one quotient and remainder. */
  lemma ModUnique(x: int, m: int, q: int, r: int)
    requires m != 0 && x == q * m + r && 0 <= r < Abs(m)
    ensures x % m == r
  {
    var q', r' := x / m, x % m;
    assert (q - q') * m == r' - r by {
      assert x == q' * m + r';
      assert q * m - q' * m == (q - q') * m;
    }
    if q != q' {
      MulAtLeast(q - q', m);
    }
  }

  /** `m` divides `a` exactly when it divides `-a`. */
  lemma NegMod(a: int, m: int)
    requires m != 0
    ensures a % m == 0 <==> (-a) % m == 0
  {
    if a % m == 0 {
      assert a == (a / m) * m;
      ModUnique(-a, m, -(a / m), 0);
    }
    if (-a) % m == 0 {
      assert -a == ((-a) / m) * m;
      ModUnique(a, m, -((-a) / m), 0);
    }
  }

  /** Java's `%`: truncating division, so the remainder takes the sign of
      the dividend; it is zero exactly when `m` divides `a`. */
  function JavaRem(a: int, m: int): (r: int)
    requires m != 0
    ensures Abs(r) < Abs(m)
    ensures a >= 0 ==> r >= 0
    ensures a < 0 ==> r <= 0
    ensures r == 0 <==> a % m == 0
    ensures (a - r) % m == 0
  {
    if a >= 0 then
      ModUnique(a - a % m, m, a / m, 0);
      a % m
    else
      NegMod(a, m);
      var q := (-a) / m;
      assert a - -((-a) % m) == (-q) * m;
      ModUnique((-q) * m, m, -q, 0);
      -((-a) % m)
  }

  /** Java's `int` increment, which wraps from the largest value to the smallest. */
  function IntInc(x: int): (r: int)
    requires IsInt(x)
    ensures IsInt(r)
    ensures (r - (x + 1)) % 0x1_0000_0000 == 0
    ensures x < IntMax ==> r == x + 1
  {
    if x == IntMax then IntMin else x + 1
  }

  /* ---------------- Moves ---------------- */

  /** The scan direction a movement direction points in. */
  function DirIndex(d: Direction): (i: nat)
    ensures i < 4
  {
    match d
    case North => 0
    case East => 1
    case South => 2
    case West => 3
  }

  /** The cell next to the head in the current direction, if it is on the board. */
  function NextCellInDir(g: Game): (r: Option<Coord>)
    requires Shaped(g)
    ensures r.Some? ==> g.board.InBounds(r.value) && Adjacent(g.snake[0], r.value)
    ensures r.Some? ==> r.value == Coord(g.snake[0].row + RowVectors[DirIndex(g.dir)],
                                         g.snake[0].col + ColumnVectors[DirIndex(g.dir)])
    ensures r.None? <==> !g.board.InBounds(Neighbour(g.snake[0], DirIndex(g.dir)))
  {
    var n := Neighbour(g.snake[0], DirIndex(g.dir));
    if g.board.InBounds(n) then Some(n) else None
  }

  /** The direction in which `c` lies from its neighbour `from`. */
  function DirectionTo(from: Coord, c: Coord): (d: Direction)
    requires Adjacent(from, c)
    ensures Neighbour(from, DirIndex(d)) == c
  {
    var i := ScanIndex(from, c);
    if i == 0 then North else if i == 1 then East else if i == 2 then South else West
  }

  /** A neighbour of `c` on the board, chosen by `pick` among those that
      exist, or nothing when `c` has no neighbour on the board. */
  function RandomNeighbour(b: Board, c: Coord, pick: nat): (r: Option<Coord>)
    ensures r.Some? ==> b.InBounds(r.value) && Adjacent(c, r.value)
    ensures r.None? <==> forall i :: 0 <= i < 4 ==> !b.InBounds(Neighbour(c, i))
  {
    var ns := ScanFrom(b, {}, c, 0);
    ScanFromMembers(b, {}, c, 0);
    if |ns| == 0 then
      assert forall i :: 0 <= i < 4 ==> Neighbour(c, i) !in ns;
      None
    else
      assert ns[pick % |ns|] in ns;
      Some(ns[pick % |ns|])
  }

  /** The first search: from the head, for the nearest food cell. */
  function FirstSearch(g: Game): (r: Option<Coord>)
    requires Shaped(g)
    ensures r.Some? ==> g.board.InBounds(r.value) && g.board.At(r.value) == Food
  {
    Bfs(g.board, NearestFood, Start(g.snake[0]))
  }

  /** The second search: from the food cell `start`, for the first cell
      that is next to the head and neither head nor body. */
  function GetFirstCellInPath(b: Board, head: Coord, start: Coord): (r: Option<Coord>)
    requires b.Valid() && b.InBounds(start)
    ensures r.Some? ==> && b.InBounds(r.value) && Adjacent(head, r.value)
                        && b.At(r.value) !in {Wall, Body, Head}
  {
    Bfs(b, NextToHead(head), Start(start))
  }

  /** The autopilot's next cell: one step toward the nearest food, or a
      random neighbour of the head when no food can be reached. */
  function NextCellFromBFS(g: Game, pick: nat): (r: Option<Coord>)
    requires Shaped(g)
    ensures r.Some? ==> g.board.InBounds(r.value) && Adjacent(g.snake[0], r.value)
  {
    match FirstSearch(g)
    case None => RandomNeighbour(g.board, g.snake[0], pick)
    case Some(food) => GetFirstCellInPath(g.board, g.snake[0], food)
  }

  /** The board after a snake whose cells are `s` eats the food at `x`:
      the old head becomes body, `x` becomes the head, nothing else changes. */
  function EatBoard(b: Board, s: seq<Coord>, x: Coord): (r: Board)
    requires b.Valid() && |s| >= 1 && b.InBounds(s[0]) && b.InBounds(x)
    ensures r.Valid() && r.rows == b.rows && r.cols == b.cols
    ensures r.At(x) == Head
    ensures s[0] != x ==> r.At(s[0]) == Body
    ensures forall c :: r.InBounds(c) && c != s[0] && c != x ==> r.At(c) == b.At(c)
  {
    b.Set(s[0], Body).Set(x, Head)
  }

  /** The board after a snake whose cells are `s` moves onto the free cell
      `x`: as for eating, and then the tail cell is emptied. */
  function MoveBoard(b: Board, s: seq<Coord>, x: Coord): (r: Board)
    requires b.Valid() && |s| >= 1 && b.InBounds(s[0]) && b.InBounds(Last(s)) && b.InBounds(x)
    ensures r.Valid() && r.rows == b.rows && r.cols == b.cols
    ensures r.At(Last(s)) == Empty
    ensures x != Last(s) ==> r.At(x) == Head
    ensures s[0] != x && s[0] != Last(s) ==> r.At(s[0]) == Body
    ensures forall c :: r.InBounds(c) && c != s[0] && c != x && c != Last(s) ==> r.At(c) == b.At(c)
  {
    EatBoard(b, s, x).Set(Last(s), Empty)
  }

  /** Moves the head onto `next`: into a wall or the body ends the game
      and changes nothing else; onto food the snake grows by the new head;
      otherwise the new head is added and the tail cell is emptied. */
  function AdvanceTheSnake(g: Game, next: Coord): (r: Game)
    requires Shaped(g) && g.board.InBounds(next)
    ensures Shaped(r) && r.dir == g.dir && r.mode == g.mode && r.cycleNum == g.cycleNum
    ensures Blocked(g.board.At(next)) ==> r.over && r.snake == g.snake && r.board == g.board
    ensures g.board.At(next) == Food ==> && r.over == g.over
                                          && |r.snake| == |g.snake| + 1
                                          && r.snake[0] == next && r.snake[1..] == g.snake
    ensures !Blocked(g.board.At(next)) && g.board.At(next) != Food ==>
              && r.over == g.over
              && |r.snake| == |g.snake|
              && r.snake[0] == next && r.snake[1..] == g.snake[..|g.snake| - 1]
    ensures !Blocked(g.board.At(next)) && next != Last(g.snake) ==> r.board.At(next) == Head
    ensures r.board.rows == g.board.rows && r.board.cols == g.board.cols
    ensures !Blocked(g.board.At(next)) && g.board.At(next) != Food ==> r.board.At(Last(g.snake)) == Empty
  {
    var b := g.board;
    if Blocked(b.At(next)) then
      g.(over := true)
    else if b.At(next) == Food then
      g.(board := EatBoard(b, g.snake, next), snake := [next] + g.snake)
    else
      g.(board := MoveBoard(b, g.snake, next), snake := [next] + g.snake[..|g.snake| - 1])
  }

  /** Every `refreshRate` frames the snake advances onto the autopilot's or
      the direction's next cell; when there is no next cell the game is over. */
  function UpdateSnake(cfg: Config, g: Game, pick: nat): (r: Game)
    requires ValidConfig(cfg) && Shaped(g)
    ensures Shaped(r) && r.dir == g.dir && r.mode == g.mode && r.cycleNum == g.cycleNum
    ensures JavaRem(g.cycleNum, cfg.refreshRate) != 0 ==> r == g
  {
    if JavaRem(g.cycleNum, cfg.refreshRate) == 0 then
      var next := if g.mode == AI then NextCellFromBFS(g, pick) else NextCellInDir(g);
      match next
      case None => g.(over := true)
      case Some(n) => AdvanceTheSnake(g, n)
    else g
  }

  /* ---------------- Food ---------------- */

  /** No cell of the board holds food. */
  predicate NoFood(b: Board)
    requires b.Valid()
  {
    forall r, c :: 0 <= r < b.rows && 0 <= c < b.cols ==> b.cells[r][c] != Food
  }

  /** The empty cells from row `r`, column `c` on, in row-major order. */
  function EmptyFrom(b: Board, r: nat, c: nat): (s: seq<Coord>)
    requires b.Valid() && r <= b.rows && c <= b.cols
    ensures forall x :: x in s <==>
              (b.InBounds(x) && b.At(x) == Empty && (x.row > r || (x.row == r && x.col >= c)))
    decreases b.rows - r, b.cols - c
  {
    if r == b.rows then []
    else if c == b.cols then EmptyFrom(b, r + 1, 0)
    else
      var rest := EmptyFrom(b, r, c + 1);
      if b.At(Coord(r, c)) == Empty then [Coord(r, c)] + rest else rest
  }

  /** Every empty cell of the board, in row-major order. */
  function EmptyCells(b: Board): (s: seq<Coord>)
    requires b.Valid()
    ensures forall x :: x in s <==> b.InBounds(x) && b.At(x) == Empty
  {
    EmptyFrom(b, 0, 0)
  }

  /** Puts food on the empty cell chosen by `pick`; a board without an
      empty cell is left as it is. */
  function AddFood(b: Board, pick: nat): (r: Board)
    requires b.Valid()
    ensures r.Valid() && r.rows == b.rows && r.cols == b.cols
    ensures (forall x :: b.InBounds(x) ==> b.At(x) != Empty) ==> r == b
    ensures (exists x :: b.InBounds(x) && b.At(x) == Empty) ==>
              exists x :: b.InBounds(x) && b.At(x) == Empty && r == b.Set(x, Food)
  {
    var empty := EmptyCells(b);
    if |empty| == 0 then b
    else
      var x := empty[pick % |empty|];
      assert x in empty;
      b.Set(x, Food)
  }

  /** Food is added when the board has none, and otherwise every
      `foodAddRate` frames. */
  function UpdateFood(cfg: Config, g: Game, pick: nat): (r: Game)
    requires ValidConfig(cfg) && g.board.Valid()
    ensures r.board.Valid() && r.board.rows == g.board.rows && r.board.cols == g.board.cols
    ensures r == g.(board := r.board)
    ensures !NoFood(g.board) && JavaRem(g.cycleNum, cfg.foodAddRate) != 0 ==> r == g
    ensures NoFood(g.board) || JavaRem(g.cycleNum, cfg.foodAddRate) == 0 ==> r.board == AddFood(g.board, pick)
  {
    if NoFood(g.board) then g.(board := AddFood(g.board, pick))
    else if JavaRem(g.cycleNum, cfg.foodAddRate) == 0 then g.(board := AddFood(g.board, pick))
    else g
  }

  /** One animation frame: move the snake, update the food, count the frame.
      The random choices of the frame are the parameters `snakePick` and
      `foodPick`. */
  function Cycle(cfg: Config, g: Game, snakePick: nat, foodPick: nat): (r: Game)
    requires ValidConfig(cfg) && Shaped(g)
    ensures Shaped(r) && r.dir == g.dir && r.mode == g.mode
    ensures r.cycleNum == IntInc(g.cycleNum)
  {
    var g1 := UpdateSnake(cfg, g, snakePick);
    var g2 := UpdateFood(cfg, g1, foodPick);
    g2.(cycleNum := IntInc(g2.cycleNum))
  }

  /* ---------------- Keys ---------------- */

  const ReverseKey: char := 'r'
  const UpKey: char := 'w'
  const DownKey: char := 's'
  const LeftKey: char := 'a'
  const RightKey: char := 'd'
  const AIModeKey: char := 'q'
  const FoodNoiseKey: char := 'f'

  datatype Command = Steer(d: Direction) | ReverseCommand | SetAIMode | PlayFoodNoise

  /** The command a typed character stands for; any other character steers East. */
  function KeyCommand(ch: char): (cmd: Command)
    ensures cmd == SetAIMode <==> ch == AIModeKey
    ensures cmd == ReverseCommand <==> ch == ReverseKey
    ensures cmd == PlayFoodNoise <==> ch == FoodNoiseKey
    ensures cmd == Steer(North) <==> ch == UpKey
    ensures cmd == Steer(South) <==> ch == DownKey
    ensures cmd == Steer(West) <==> ch == LeftKey
    ensures cmd == Steer(East) <==>
              ch == RightKey || ch !in {UpKey, DownKey, LeftKey, RightKey, ReverseKey, AIModeKey, FoodNoiseKey}
  {
    if ch == UpKey then Steer(North)
    else if ch == DownKey then Steer(South)
    else if ch == LeftKey then Steer(West)
    else if ch == RightKey then Steer(East)
    else if ch == ReverseKey then ReverseCommand
    else if ch == AIModeKey then SetAIMode
    else if ch == FoodNoiseKey then PlayFoodNoise
    else Steer(East)
  }

  /** The snake turned around: the tail cell becomes the head, the old
      head becomes body, and the direction turns to point from the new
      second cell to the new head, so the snake moves away from its body. */
  function ReverseSnake(g: Game): (r: Game)
    requires Shaped(g)
    ensures Shaped(r) && r.mode == g.mode && r.over == g.over && r.cycleNum == g.cycleNum
    ensures |r.snake| == |g.snake|
    ensures forall i :: 0 <= i < |g.snake| ==> r.snake[i] == g.snake[|g.snake| - 1 - i]
    ensures r.board.At(r.snake[0]) == Head
    ensures |r.snake| >= 2 && Adjacent(r.snake[1], r.snake[0]) ==>
              Neighbour(r.snake[1], DirIndex(r.dir)) == r.snake[0]
    ensures |r.snake| < 2 || !Adjacent(r.snake[1], r.snake[0]) ==> r.dir == g.dir
  {
    var s := ReverseList(g.snake);
    var b := g.board.Set(g.snake[0], Body).Set(s[0], Head);
    var d := if |s| >= 2 && Adjacent(s[1], s[0]) then DirectionTo(s[1], s[0]) else g.dir;
    g.(board := b, snake := s, dir := d)
  }

  /** A key press: steer, turn the snake around, switch to the autopilot,
      or (the food noise) leave the game as it is. */
  function KeyPressed(g: Game, ch: char): (r: Game)
    requires Shaped(g)
    ensures Shaped(r)
    ensures r.mode == (if ch == AIModeKey then AI else g.mode)
    ensures ch == FoodNoiseKey ==> r == g
    ensures ch == ReverseKey ==> r == ReverseSnake(g)
    ensures KeyCommand(ch).Steer? ==> r == g.(dir := KeyCommand(ch).d)
  {
    match KeyCommand(ch)
    case Steer(d) => g.(dir := d)
    case ReverseCommand => ReverseSnake(g)
    case SetAIMode => g.(mode := AI)
    case PlayFoodNoise => g
  }
}

=== FILE: BrainProof.dfy ===
/** What the controller guarantees: the autopilot's step is the first step
    of a shortest path to the nearest food, the snake's moves keep the board
    and the snake in agreement, and the frame schedule and key mapping do
    what they say. */
module BrainProof {
  import opened Grid
  import opened Lists
  import opened Reach
  import opened Search
  import opened SearchProof
  import opened Brain

  /** The head is on the board and is the only head cell. */
  ghost predicate HeadOnlyAt(b: Board, h: Coord)
    requires b.Valid()
  {
    b.InBounds(h) && b.At(h) == Head && forall c :: b.InBounds(c) && b.At(c) == Head ==> c == h
  }

  /* ---------------- The two searches ---------------- */

  /** On a shortest walk from the head to `f`, the cell after the head is
      open, next to the head, not the head, and at most `d - 1` steps from
      `f`: the second search has a goal to find. */
  lemma FirstStepReachable(b: Board, h: Coord, f: Coord, d: nat) returns (w: Coord)
    requires b.Valid() && HeadOnlyAt(b, h) && d >= 1 && Level(b, h, d, f) && Open(b, f)
    ensures Within(b, f, d - 1, w) && OpenGoal(b, NextToHead(h), w)
  {
    LevelIsShortestWalk(b, h, d, f);
    var p :| WalkFromTo(b, p, h, f) && |p| == d + 1;
    var tail := p[1..];
    assert IsWalk(b, tail);
    w := p[1];
    WalkWithin(b, tail);
    ReverseWalk(b, tail);
    var r := ReverseList(tail);
    WalkWithin(b, r);
    assert r[0] == f && Last(r) == w;
    assert Adjacent(p[0], p[1]);
  }

  /** A goal of the second search at most `k` steps from `f` gives a walk
      from the head to `f` of at most `k + 1` steps. */
  lemma StepBackBound(b: Board, h: Coord, f: Coord, k: nat, n: Coord)
    requires b.Valid() && HeadOnlyAt(b, h) && b.InBounds(f)
    requires Within(b, f, k, n) && OpenGoal(b, NextToHead(h), n)
    ensures Within(b, h, k + 1, f)
  {
    var q := WithinHasWalk(b, f, k, n);
    ReverseWalk(b, q);
    var p := [h] + ReverseList(q);
    assert IsWalk(b, p) by {
      forall i | 0 <= i < |p| - 1 ensures !Blocked(b.At(p[i])) && Adjacent(p[i], p[i + 1]) {
        if i > 0 {
          assert p[i] == ReverseList(q)[i - 1];
        }
      }
    }
    WalkWithin(b, p);
    WithinGrows(b, h, |p| - 1, k + 1, f);
  }

  /** A cell `d - 1` steps from `f` that is next to the head starts a
      shortest walk from the head to `f`. */
  lemma ShortestFirstStep(b: Board, h: Coord, f: Coord, d: nat, n: Coord)
    requires b.Valid() && HeadOnlyAt(b, h) && d >= 1 && b.InBounds(f)
    requires Level(b, f, d - 1, n) && OpenGoal(b, NextToHead(h), n)
    ensures exists p :: WalkFromTo(b, p, h, f) && |p| == d + 1 && p[1] == n
  {
    LevelIsShortestWalk(b, f, d - 1, n);
    var q :| WalkFromTo(b, q, f, n) && |q| == d;
    ReverseWalk(b, q);
    var p := [h] + ReverseList(q);
    assert IsWalk(b, p) by {
      forall i | 0 <= i < |p| - 1 ensures !Blocked(b.At(p[i])) && Adjacent(p[i], p[i + 1]) {
        if i > 0 {
          assert p[i] == ReverseList(q)[i - 1];
        }
      }
    }
    assert WalkFromTo(b, p, h, f) && |p| == d + 1 && p[1] == n;
  }

  /** The second search, started at a food cell `d` steps from the head,
      returns a cell next to the head exactly `d - 1` steps from the food. */
  lemma SecondSearchLevel(b: Board, h: Coord, f: Coord, d: nat)
    requires b.Valid() && HeadOnlyAt(b, h) && d >= 1 && Level(b, h, d, f) && Open(b, f)
    ensures GetFirstCellInPath(b, h, f).Some?
    ensures Level(b, f, d - 1, GetFirstCellInPath(b, h, f).value)
    ensures OpenGoal(b, NextToHead(h), GetFirstCellInPath(b, h, f).value)
  {
    var w := FirstStepReachable(b, h, f, d);
    var d2 := NearestWithin(b, NextToHead(h), f, d - 1, w);
    NotCloser(b, h, f, d, d2, GetFirstCellInPath(b, h, f).value);
  }

  /** The second search's goal is no closer to the food than `d - 1`
      steps, or the food would be closer than `d` to the head. */
  lemma NotCloser(b: Board, h: Coord, f: Coord, d: nat, d2: nat, n: Coord)
    requires b.Valid() && HeadOnlyAt(b, h) && d >= 1 && Level(b, h, d, f) && b.InBounds(f)
    requires d2 <= d - 1 && NearestGoal(b, NextToHead(h), f, d2, n)
    ensures Level(b, f, d - 1, n)
  {
    if d2 < d - 1 {
      StepBackBound(b, h, f, d2, n);
      WithinGrows(b, h, d2 + 1, d - 1, f);
    }
  }

  /** ... and that cell is the first step of a shortest walk from the head
      to the food. */
  lemma SecondSearchStep(b: Board, h: Coord, f: Coord, d: nat)
    requires b.Valid() && HeadOnlyAt(b, h) && d >= 1 && Level(b, h, d, f) && Open(b, f)
    ensures GetFirstCellInPath(b, h, f).Some?
    ensures Level(b, f, d - 1, GetFirstCellInPath(b, h, f).value)
    ensures OpenGoal(b, NextToHead(h), GetFirstCellInPath(b, h, f).value)
    ensures exists p :: WalkFromTo(b, p, h, f) && |p| == d + 1 && p[1] == GetFirstCellInPath(b, h, f).value
  {
    SecondSearchLevel(b, h, f, d);
    ShortestFirstStep(b, h, f, d, GetFirstCellInPath(b, h, f).value);
  }

  /** The autopilot: when food can be reached, the first search returns a
      nearest food cell `d >= 1` steps away and the step taken is the first
      step of a shortest walk to it, exactly `d - 1` steps from it (the food
      itself when it is next to the head); when no food can be reached, the
      step is the random neighbour. */
  lemma NextCellFromBfsCorrect(g: Game, pick: nat)
    requires Shaped(g) && HeadOnlyAt(g.board, g.snake[0])
    ensures FirstSearch(g).Some? ==>
              exists d :: d >= 1 && NearestGoal(g.board, NearestFood, g.snake[0], d, FirstSearch(g).value)
                          && NextCellFromBFS(g, pick).Some?
                          && OpenGoal(g.board, NextToHead(g.snake[0]), NextCellFromBFS(g, pick).value)
                          && Level(g.board, FirstSearch(g).value, d - 1, NextCellFromBFS(g, pick).value)
                          && (exists p :: WalkFromTo(g.board, p, g.snake[0], FirstSearch(g).value)
                                          && |p| == d + 1 && p[1] == NextCellFromBFS(g, pick).value)
    ensures FirstSearch(g).None? ==>
              NextCellFromBFS(g, pick) == RandomNeighbour(g.board, g.snake[0], pick)
              && NoGoalReachable(g.board, NearestFood, g.snake[0])
  {
    var b, h := g.board, g.snake[0];
    BfsFindsNearestGoal(b, NearestFood, h);
    if FirstSearch(g).Some? {
      var f := FirstSearch(g).value;
      var d :| NearestGoal(b, NearestFood, h, d, f);
      assert d >= 1;
      SecondSearchStep(b, h, f, d);
    }
  }

  /** Food next to the head is one step away, so the nearest food is at most one step away. */
  lemma AdjacentFoodLevel(b: Board, h: Coord, x: Coord) returns (d: nat)
    requires b.Valid() && HeadOnlyAt(b, h) && b.InBounds(x) && Adjacent(h, x) && b.At(x) == Food
    ensures Bfs(b, NearestFood, Start(h)).Some?
    ensures d <= 1 && NearestGoal(b, NearestFood, h, d, Bfs(b, NearestFood, Start(h)).value)
  {
    OneStepWithin(b, h, x);
    d := NearestWithin(b, NearestFood, h, 1, x);
  }

  /** A step out of the start cell reaches distance one. */
  lemma OneStepWithin(b: Board, h: Coord, x: Coord)
    requires b.Valid() && Step(b, h, x)
    ensures Within(b, h, 1, x)
  {
  }

  /** The head cell is not food, so the nearest food is at least one step away. */
  lemma HeadIsNoFood(b: Board, h: Coord, d: nat, n: Coord)
    requires b.Valid() && b.InBounds(h) && b.At(h) == Head && NearestGoal(b, NearestFood, h, d, n)
    ensures d != 0
  {
  }

  /** When food is next to the head, the autopilot steps onto food next to the head. */
  lemma AdjacentFoodIsTaken(g: Game, pick: nat)
    requires Shaped(g) && HeadOnlyAt(g.board, g.snake[0])
    requires exists i :: 0 <= i < 4 && g.board.InBounds(Neighbour(g.snake[0], i))
                                    && g.board.At(Neighbour(g.snake[0], i)) == Food
    ensures FirstSearch(g).Some?
    ensures Adjacent(g.snake[0], FirstSearch(g).value)
    ensures NextCellFromBFS(g, pick) == FirstSearch(g)
  {
    var b, h := g.board, g.snake[0];
    var i :| 0 <= i < 4 && b.InBounds(Neighbour(h, i)) && b.At(Neighbour(h, i)) == Food;
    var d := AdjacentFoodLevel(b, h, Neighbour(h, i));
    var f := FirstSearch(g).value;
    HeadIsNoFood(b, h, d, f);
    SecondSearchLevel(b, h, f, d);
    LevelIsShortestWalk(b, h, 1, f);
    var p :| WalkFromTo(b, p, h, f) && |p| == 2;
    assert Adjacent(p[0], p[1]);
  }

  /* ---------------- The snake and the board agree ---------------- */

  /** The snake's cells are distinct and each is next to the one before. */
  predicate Chained(s: seq<Coord>)
  {
    NoDup(s) && forall i :: 0 <= i < |s| - 1 ==> Adjacent(s[i], s[i + 1])
  }

  /** The snake lies on the board, its first cell holds the head and its
      other cells hold body. */
  predicate Marked(b: Board, s: seq<Coord>)
    requires b.Valid()
  {
    && |s| >= 1
    && (forall i :: 0 <= i < |s| ==> b.InBounds(s[i]))
    && b.At(s[0]) == Head
    && (forall i :: 1 <= i < |s| ==> b.At(s[i]) == Body)
  }

  /** No cell off the snake holds head or body. */
  ghost predicate NoStray(b: Board, s: seq<Coord>)
    requires b.Valid()
  {
    forall c :: b.InBounds(c) && (b.At(c) == Head || b.At(c) == Body) ==> c in s
  }

  /** The snake and the board agree. */
  ghost predicate Consistent(g: Game)
  {
    Shaped(g) && Chained(g.snake) && Marked(g.board, g.snake) && NoStray(g.board, g.snake)
  }

  /** In a consistent game the snake's first cell is the only head cell. */
  lemma ConsistentHead(g: Game)
    requires Consistent(g)
    ensures HeadOnlyAt(g.board, g.snake[0])
  {
    forall c | g.board.InBounds(c) && g.board.At(c) == Head ensures c == g.snake[0] {
      var i :| 0 <= i < |g.snake| && g.snake[i] == c;
      assert i == 0;
    }
  }

  /** A cell holding neither head nor body is not on the snake. */
  lemma OffSnake(b: Board, s: seq<Coord>, x: Coord)
    requires b.Valid() && Marked(b, s) && b.InBounds(x) && b.At(x) != Head && b.At(x) != Body
    ensures x !in s
  {
    forall i | 0 <= i < |s| ensures s[i] != x {
      assert i == 0 || b.At(s[i]) == Body;
    }
  }

  lemma EatMarked(b: Board, s: seq<Coord>, x: Coord)
    requires b.Valid() && Marked(b, s) && b.InBounds(x) && x !in s
    ensures Marked(EatBoard(b, s, x), [x] + s)
  {
    var r, s' := EatBoard(b, s, x), [x] + s;
    forall i | 1 <= i < |s'| ensures r.At(s'[i]) == Body {
      assert s'[i] == s[i - 1];
    }
  }

  lemma EatNoStray(b: Board, s: seq<Coord>, x: Coord)
    requires b.Valid() && Marked(b, s) && NoStray(b, s) && b.InBounds(x)
    ensures NoStray(EatBoard(b, s, x), [x] + s)
  {
    var r := EatBoard(b, s, x);
    forall c | r.InBounds(c) && (r.At(c) == Head || r.At(c) == Body) ensures c in [x] + s {
      if c != x && c != s[0] {
        assert c in s;
      }
    }
  }

  lemma MoveMarked(b: Board, s: seq<Coord>, x: Coord)
    requires b.Valid() && Marked(b, s) && Chained(s) && b.InBounds(x) && x !in s
    ensures Marked(MoveBoard(b, s, x), [x] + s[..|s| - 1])
  {
    var r, s' := MoveBoard(b, s, x), [x] + s[..|s| - 1];
    forall i | 1 <= i < |s'| ensures r.At(s'[i]) == Body {
      assert s'[i] == s[i - 1] && s[i - 1] != Last(s);
    }
  }

  lemma MoveNoStray(b: Board, s: seq<Coord>, x: Coord)
    requires b.Valid() && Marked(b, s) && NoStray(b, s) && b.InBounds(x)
    ensures NoStray(MoveBoard(b, s, x), [x] + s[..|s| - 1])
  {
    var r, s' := MoveBoard(b, s, x), [x] + s[..|s| - 1];
    forall c | r.InBounds(c) && (r.At(c) == Head || r.At(c) == Body) ensures c in s' {
      if c != x {
        assert c != Last(s) && c in s;
        var i :| 0 <= i < |s| && s[i] == c;
        assert s'[i + 1] == c;
      }
    }
  }

  lemma MoveChained(s: seq<Coord>, x: Coord)
    requires Chained(s) && |s| >= 1 && Adjacent(s[0], x) && x !in s
    ensures Chained([x] + s[..|s| - 1])
  {
    var s' := [x] + s[..|s| - 1];
    forall i, j | 0 <= i < j < |s'| ensures s'[i] != s'[j] {
      assert s'[j] == s[j - 1];
      if i > 0 {
        assert s'[i] == s[i - 1];
      }
    }
    forall i | 0 <= i < |s'| - 1 ensures Adjacent(s'[i], s'[i + 1]) {
      if i > 0 {
        assert s'[i] == s[i - 1] && s'[i + 1] == s[i];
      }
    }
  }

  lemma EatChained(s: seq<Coord>, x: Coord)
    requires Chained(s) && |s| >= 1 && Adjacent(s[0], x) && x !in s
    ensures Chained([x] + s)
  {
    var s' := [x] + s;
    PrependNoDup(x, s);
    forall i | 0 <= i < |s'| - 1 ensures Adjacent(s'[i], s'[i + 1]) {
      if i > 0 {
        assert s'[i] == s[i - 1] && s'[i + 1] == s[i];
      }
    }
  }

  /** Advancing the snake onto a cell next to its head keeps the snake and
      the board in agreement, whatever the cell holds. */
  lemma AdvanceKeepsConsistent(g: Game, next: Coord)
    requires Consistent(g) && g.board.InBounds(next) && Adjacent(g.snake[0], next)
    ensures Consistent(AdvanceTheSnake(g, next))
  {
    var b, s := g.board, g.snake;
    var r := AdvanceTheSnake(g, next);
    if Blocked(b.At(next)) {
      assert r.board == b && r.snake == s;
    } else if b.At(next) == Food {
      OffSnake(b, s, next);
      assert r == g.(board := EatBoard(b, s, next), snake := [next] + s);
      EatMarked(b, s, next);
      EatNoStray(b, s, next);
      EatChained(s, next);
    } else {
      ConsistentHead(g);
      assert next != s[0];
      OffSnake(b, s, next);
      assert r == g.(board := MoveBoard(b, s, next), snake := [next] + s[..|s| - 1]);
      MoveMarked(b, s, next);
      MoveNoStray(b, s, next);
      MoveChained(s, next);
    }
  }

  /* ---------------- What an advance changes ---------------- */

  /** The food cells of a board. */
  function FoodCells(b: Board): (s: set<Coord>)
    requires b.Valid()
    ensures forall c :: c in s <==> b.InBounds(c) && b.At(c) == Food
  {
    set c | c in b.AllCells() && b.At(c) == Food
  }

  /** A board has no food exactly when its set of food cells is empty. */
  lemma NoFoodIsEmpty(b: Board)
    requires b.Valid()
    ensures NoFood(b) <==> FoodCells(b) == {}
  {
    if !NoFood(b) {
      var r, c :| 0 <= r < b.rows && 0 <= c < b.cols && b.cells[r][c] == Food;
      assert Coord(r, c) in FoodCells(b);
    }
    if FoodCells(b) != {} {
      var x :| x in FoodCells(b);
      assert b.cells[x.row][x.col] == Food;
    }
  }

  /** An advance changes at most the old head, the new head and the old
      tail cell; every other cell keeps what it held. */
  lemma AdvanceTouchesThreeCells(g: Game, next: Coord, c: Coord)
    requires Shaped(g) && g.board.InBounds(next) && g.board.InBounds(c)
    requires c != g.snake[0] && c != next && c != Last(g.snake)
    ensures AdvanceTheSnake(g, next).board.At(c) == g.board.At(c)
  {
  }

  /** An advance of a consistent snake neither builds nor removes a wall. */
  lemma AdvanceKeepsWalls(g: Game, next: Coord, c: Coord)
    requires Consistent(g) && g.board.InBounds(next) && g.board.InBounds(c)
    ensures AdvanceTheSnake(g, next).board.At(c) == Wall <==> g.board.At(c) == Wall
  {
  }

  /** Eating removes exactly the eaten food cell and the snake grows by one. */
  lemma EatRemovesFood(g: Game, next: Coord)
    requires Consistent(g) && g.board.InBounds(next) && g.board.At(next) == Food
    ensures FoodCells(AdvanceTheSnake(g, next).board) == FoodCells(g.board) - {next}
    ensures |FoodCells(AdvanceTheSnake(g, next).board)| == |FoodCells(g.board)| - 1
    ensures |AdvanceTheSnake(g, next).snake| == |g.snake| + 1
  {
    var r := AdvanceTheSnake(g, next);
    assert r.board == EatBoard(g.board, g.snake, next);
    assert FoodCells(r.board) == FoodCells(g.board) - {next};
  }

  /** A plain move leaves the food where it is, and the snake keeps its length. */
  lemma MoveKeepsFood(g: Game, next: Coord)
    requires Consistent(g) && g.board.InBounds(next)
    requires !Blocked(g.board.At(next)) && g.board.At(next) != Food
    ensures FoodCells(AdvanceTheSnake(g, next).board) == FoodCells(g.board)
    ensures |AdvanceTheSnake(g, next).snake| == |g.snake|
  {
    var r := AdvanceTheSnake(g, next);
    assert r.board == MoveBoard(g.board, g.snake, next);
    assert g.board.At(Last(g.snake)) != Food;
    assert FoodCells(r.board) == FoodCells(g.board);
  }

  /* ---------------- Turning the snake around ---------------- */

  lemma ReverseChained(s: seq<Coord>)
    requires Chained(s)
    ensures Chained(ReverseList(s))
  {
    var r := ReverseList(s);
    ReversePreservesNoDup(s);
    forall i | 0 <= i < |r| - 1 ensures Adjacent(r[i], r[i + 1]) {
      assert r[i] == s[|s| - 1 - i] && r[i + 1] == s[|s| - 2 - i];
      assert Adjacent(s[|s| - 2 - i], s[|s| - 1 - i]);
    }
  }

  lemma ReverseMarked(g: Game)
    requires Consistent(g)
    ensures Marked(ReverseSnake(g).board, ReverseSnake(g).snake)
  {
    var r, s := ReverseSnake(g), g.snake;
    var n := |s|;
    forall i | 1 <= i < n ensures r.board.At(r.snake[i]) == Body {
      assert r.snake[i] == s[n - 1 - i] && r.snake[0] == s[n - 1];
      assert s[n - 1 - i] != s[n - 1];
    }
  }

  lemma ReverseNoStray(g: Game)
    requires Consistent(g)
    ensures NoStray(ReverseSnake(g).board, ReverseSnake(g).snake)
  {
    var r, s := ReverseSnake(g), g.snake;
    var n := |s|;
    forall c | r.board.InBounds(c) && (r.board.At(c) == Head || r.board.At(c) == Body) ensures c in r.snake {
      if c == r.snake[0] {
      } else {
        assert c in s;
        var i :| 0 <= i < n && s[i] == c;
        assert r.snake[n - 1 - i] == c;
      }
    }
  }

  /** Turning the snake around keeps the snake and the board in agreement. */
  lemma ReverseKeepsConsistent(g: Game)
    requires Consistent(g)
    ensures Consistent(ReverseSnake(g))
  {
    ReverseChained(g.snake);
    ReverseMarked(g);
    ReverseNoStray(g);
  }

  /** Swapping head and tail marks twice restores the board. */
  lemma SwapMarksTwice(b: Board, h: Coord, t: Coord)
    requires b.Valid() && b.InBounds(h) && b.InBounds(t)
    requires b.At(h) == Head && (t != h ==> b.At(t) == Body)
    ensures b.Set(h, Body).Set(t, Head).Set(t, Body).Set(h, Head) == b
  {
    var b' := b.Set(h, Body).Set(t, Head).Set(t, Body).Set(h, Head);
    SameCells(b', b);
  }

  /** A consistent snake, once turned around, heads away from its body:
      the cell ahead of the new head is never the new second cell. */
  lemma ReverseHeadsAway(g: Game)
    requires Consistent(g) && |g.snake| >= 2
    ensures Neighbour(ReverseSnake(g).snake[1], DirIndex(ReverseSnake(g).dir)) == ReverseSnake(g).snake[0]
    ensures NextCellInDir(ReverseSnake(g)) != Some(ReverseSnake(g).snake[1])
  {
    var r, n := ReverseSnake(g), |g.snake|;
    assert r.snake[0] == g.snake[n - 1] && r.snake[1] == g.snake[n - 2];
    assert Adjacent(g.snake[n - 2], g.snake[n - 1]);
  }

  /** Turning the snake around twice gives back the same snake and board;
      the direction then points the way the original head faced. */
  lemma ReverseReverse(g: Game)
    requires Consistent(g)
    ensures var r := ReverseSnake(ReverseSnake(g));
            r.snake == g.snake && r.board == g.board && r.mode == g.mode && r.over == g.over && r.cycleNum == g.cycleNum
    ensures |g.snake| >= 2 ==> Neighbour(g.snake[1], DirIndex(ReverseSnake(ReverseSnake(g)).dir)) == g.snake[0]
  {
    var s := g.snake;
    var n := |s|;
    var r1 := ReverseSnake(g);
    var r2 := ReverseSnake(r1);
    ReverseTwice(s);
    assert r2.snake == s;
    assert r1.snake[0] == s[n - 1] && ReverseList(r1.snake)[0] == s[0];
    assert r1.board == g.board.Set(s[0], Body).Set(s[n - 1], Head);
    assert n - 1 != 0 ==> g.board.At(s[n - 1]) == Body;
    SwapMarksTwice(g.board, s[0], s[n - 1]);
    if n >= 2 {
      assert Adjacent(s[0], s[1]);
    }
  }

  /* ---------------- Random choices ---------------- */

  /** Every board neighbour of `c` is the random neighbour for some pick. */
  lemma RandomNeighbourCovers(b: Board, c: Coord, i: nat)
    requires i < 4 && b.InBounds(Neighbour(c, i))
    ensures exists pick: nat :: RandomNeighbour(b, c, pick) == Some(Neighbour(c, i))
  {
    var ns := ScanFrom(b, {}, c, 0);
    ScanFromMembers(b, {}, c, 0);
    assert Neighbour(c, i) in ns;
    var j :| 0 <= j < |ns| && ns[j] == Neighbour(c, i);
    ModUnique(j, |ns|, 0, j);
    assert RandomNeighbour(b, c, j) == Some(Neighbour(c, i));
  }

  /** Every empty cell is where food lands for some pick. */
  lemma AddFoodCovers(b: Board, x: Coord)
    requires b.Valid() && b.InBounds(x) && b.At(x) == Empty
    ensures exists pick: nat :: AddFood(b, pick) == b.Set(x, Food)
  {
    var e := EmptyCells(b);
    var j :| 0 <= j < |e| && e[j] == x;
    ModUnique(j, |e|, 0, j);
    assert AddFood(b, j) == b.Set(x, Food);
  }

  /** Adding food changes at most one cell, and only an empty one into food. */
  lemma AddFoodOnEmpty(b: Board, pick: nat)
    requires b.Valid()
    ensures forall c :: b.InBounds(c) && AddFood(b, pick).At(c) != b.At(c) ==>
                          b.At(c) == Empty && AddFood(b, pick).At(c) == Food
  {
  }

  /** With an empty cell on the board, adding food makes exactly one more food cell. */
  lemma AddFoodCount(b: Board, pick: nat)
    requires b.Valid() && exists x :: b.InBounds(x) && b.At(x) == Empty
    ensures |FoodCells(AddFood(b, pick))| == |FoodCells(b)| + 1
  {
    var r := AddFood(b, pick);
    var x :| b.InBounds(x) && b.At(x) == Empty && r == b.Set(x, Food);
    FoodPlaced(b, x);
  }

  /** Putting food on a cell without food adds that one cell to the food cells. */
  lemma FoodPlaced(b: Board, x: Coord)
    requires b.Valid() && b.InBounds(x) && b.At(x) != Food
    ensures FoodCells(b.Set(x, Food)) == FoodCells(b) + {x}
    ensures |FoodCells(b.Set(x, Food))| == |FoodCells(b)| + 1
  {
    assert FoodCells(b.Set(x, Food)) == FoodCells(b) + {x};
  }

  /* ---------------- The frame ---------------- */

  /** The snake moves only on frames whose number `refreshRate` divides;
      on those it advances onto the autopilot's step or the cell ahead. */
  lemma SnakeGating(cfg: Config, g: Game, pick: nat)
    requires ValidConfig(cfg) && Shaped(g)
    ensures g.cycleNum % cfg.refreshRate != 0 ==> UpdateSnake(cfg, g, pick) == g
    ensures g.cycleNum % cfg.refreshRate == 0 && g.mode == Manual && NextCellInDir(g).Some? ==>
              UpdateSnake(cfg, g, pick) == AdvanceTheSnake(g, NextCellInDir(g).value)
    ensures g.cycleNum % cfg.refreshRate == 0 && g.mode == AI && NextCellFromBFS(g, pick).Some? ==>
              UpdateSnake(cfg, g, pick) == AdvanceTheSnake(g, NextCellFromBFS(g, pick).value)
    ensures g.cycleNum % cfg.refreshRate == 0 &&
            (if g.mode == AI then NextCellFromBFS(g, pick) else NextCellInDir(g)).None? ==>
              UpdateSnake(cfg, g, pick) == g.(over := true)
  {
  }

  /** Food is added when there is none, and otherwise exactly on frames
      whose number `foodAddRate` divides. */
  lemma FoodGating(cfg: Config, g: Game, pick: nat)
    requires ValidConfig(cfg) && g.board.Valid()
    ensures NoFood(g.board) || g.cycleNum % cfg.foodAddRate == 0 ==>
              UpdateFood(cfg, g, pick) == g.(board := AddFood(g.board, pick))
    ensures !NoFood(g.board) && g.cycleNum % cfg.foodAddRate != 0 ==> UpdateFood(cfg, g, pick) == g
  {
  }

  /** A frame's snake step keeps the snake and the board in agreement. */
  lemma UpdateSnakeKeepsConsistent(cfg: Config, g: Game, pick: nat)
    requires ValidConfig(cfg) && Consistent(g)
    ensures Consistent(UpdateSnake(cfg, g, pick))
  {
    if JavaRem(g.cycleNum, cfg.refreshRate) == 0 {
      var next := if g.mode == AI then NextCellFromBFS(g, pick) else NextCellInDir(g);
      if next.Some? {
        AdvanceKeepsConsistent(g, next.value);
      }
    }
  }

  /** A frame's food step keeps the snake and the board in agreement. */
  lemma UpdateFoodKeepsConsistent(cfg: Config, g: Game, pick: nat)
    requires ValidConfig(cfg) && Consistent(g)
    ensures Consistent(UpdateFood(cfg, g, pick))
  {
    var r := UpdateFood(cfg, g, pick);
    if r != g {
      AddFoodOnEmpty(g.board, pick);
      assert r.board == AddFood(g.board, pick);
      forall i | 0 <= i < |g.snake| ensures r.board.At(g.snake[i]) == g.board.At(g.snake[i]) {
        assert i == 0 || g.board.At(g.snake[i]) == Body;
      }
    }
  }

  /** A whole frame keeps the snake and the board in agreement and counts
      one frame. */
  lemma CycleKeepsConsistent(cfg: Config, g: Game, snakePick: nat, foodPick: nat)
    requires ValidConfig(cfg) && Consistent(g)
    ensures Consistent(Cycle(cfg, g, snakePick, foodPick))
    ensures g.cycleNum < IntMax ==> Cycle(cfg, g, snakePick, foodPick).cycleNum == g.cycleNum + 1
  {
    var g1 := UpdateSnake(cfg, g, snakePick);
    UpdateSnakeKeepsConsistent(cfg, g, snakePick);
    UpdateFoodKeepsConsistent(cfg, g1, foodPick);
  }

  /** Adding food never removes food. */
  lemma AddFoodKeepsFood(b: Board, pick: nat, f: Coord)
    requires b.Valid() && b.InBounds(f) && b.At(f) == Food
    ensures AddFood(b, pick).At(f) == Food
  {
  }

  /** The food step comes after the snake step: a frame never ends with no
      food on a board that still has an empty cell, even when the snake has
      just eaten the last food. */
  lemma FrameEndsWithFood(cfg: Config, g: Game, snakePick: nat, foodPick: nat)
    requires ValidConfig(cfg) && Shaped(g)
    ensures var r := Cycle(cfg, g, snakePick, foodPick);
            !NoFood(r.board) || forall x :: r.board.InBounds(x) ==> r.board.At(x) != Empty
  {
    var g1 := UpdateSnake(cfg, g, snakePick);
    var b1 := g1.board;
    var b := Cycle(cfg, g, snakePick, foodPick).board;
    assert b == UpdateFood(cfg, g1, foodPick).board;
    if NoFood(b1) {
      assert b == AddFood(b1, foodPick);
      if exists x :: b1.InBounds(x) && b1.At(x) == Empty {
        var x :| b1.InBounds(x) && b1.At(x) == Empty && b == b1.Set(x, Food);
        assert b.cells[x.row][x.col] == Food;
      }
    } else {
      var r, c :| 0 <= r < b1.rows && 0 <= c < b1.cols && b1.cells[r][c] == Food;
      var f := Coord(r, c);
      assert b1.At(f) == Food;
      AddFoodKeepsFood(b1, foodPick, f);
      assert b.At(f) == Food;
    }
  }

  /** On a frame where neither the snake moves nor food is due, only the
      frame counter changes. */
  lemma QuietFrame(cfg: Config, g: Game, snakePick: nat, foodPick: nat)
    requires ValidConfig(cfg) && Shaped(g)
    requires g.cycleNum % cfg.refreshRate != 0 && g.cycleNum % cfg.foodAddRate != 0 && !NoFood(g.board)
    ensures Cycle(cfg, g, snakePick, foodPick) == g.(cycleNum := IntInc(g.cycleNum))
  {
    SnakeGating(cfg, g, snakePick);
    FoodGating(cfg, g, foodPick);
  }

  /* ---------------- Keys ---------------- */

  /** Any key press keeps the snake and the board in agreement. */
  lemma KeyKeepsConsistent(g: Game, ch: char)
    requires Consistent(g)
    ensures Consistent(KeyPressed(g, ch))
  {
    if ch == ReverseKey {
      ReverseKeepsConsistent(g);
    }
  }

  /** The autopilot key sets the mode rather than toggling it. */
  lemma AIKeyIdempotent(g: Game)
    requires Shaped(g)
    ensures KeyPressed(KeyPressed(g, AIModeKey), AIModeKey) == KeyPressed(g, AIModeKey)
    ensures KeyPressed(g, AIModeKey) == g.(mode := AI)
  {
    assert KeyCommand(AIModeKey) == SetAIMode;
  }

  /** Only the reverse key moves the snake or touches the board. */
  lemma KeysLeaveBoard(g: Game, ch: char)
    requires Shaped(g) && ch != ReverseKey
    ensures KeyPressed(g, ch).board == g.board && KeyPressed(g, ch).snake == g.snake
    ensures KeyPressed(g, ch).over == g.over && KeyPressed(g, ch).cycleNum == g.cycleNum
  {
  }
}

=== FILE: Grid.dfy ===
/** The board the snake lives on: a rectangular grid of cells, each holding
    exactly one occupancy, addressed by (row, column) coordinates. */
module Grid {

  /** What a board cell holds. One tag per cell replaces the source's
      separate boolean flags, so a cell cannot be, say, wall and food at once. */
  datatype Occupancy = Empty | Wall | Head | Body | Food

  /** The test both searches use to skip a dequeued cell: walls and body
      cells are never expanded. */
  predicate Blocked(o: Occupancy)
  {
    o == Wall || o == Body
  }

  datatype Coord = Coord(row: int, col: int)

  /** Direction vectors, indexed North, East, South, West. This order fixes
      the order in which a search discovers neighbours. */
  const RowVectors: seq<int> := [-1, 0, 1, 0]
  const ColumnVectors: seq<int> := [0, 1, 0, -1]

  function Abs(x: int): nat
  {
    if x < 0 then -x else x
  }

  function Manhattan(a: Coord, b: Coord): nat
  {
    Abs(a.row - b.row) + Abs(a.col - b.col)
  }

  /** Horizontally or vertically next to each other. */
  predicate Adjacent(a: Coord, b: Coord)
  {
    || (a.row == b.row && (a.col - b.col == 1 || b.col - a.col == 1))
    || (a.col == b.col && (a.row - b.row == 1 || b.row - a.row == 1))
  }

  /** Adjacency is Manhattan distance one. */
  lemma AdjacentIsDistanceOne(a: Coord, b: Coord)
    ensures Adjacent(a, b) <==> Manhattan(a, b) == 1
  {
  }

  /** The neighbour of `c` in scan direction `i` (0 = North, 1 = East,
      2 = South, 3 = West). */
  function Neighbour(c: Coord, i: nat): (n: Coord)
    requires i < 4
    ensures Adjacent(c, n) && Adjacent(n, c)
  {
    if i == 0 then Coord(c.row - 1, c.col)
    else if i == 1 then Coord(c.row, c.col + 1)
    else if i == 2 then Coord(c.row + 1, c.col)
    else Coord(c.row, c.col - 1)
  }

  /** The neighbours are the cells the direction vectors point at. */
  lemma NeighbourFollowsVectors(c: Coord, i: nat)
    requires i < 4
    ensures Neighbour(c, i) == Coord(c.row + RowVectors[i], c.col + ColumnVectors[i])
  {
  }

  /** The scan direction in which `n` lies from `c`. */
  function ScanIndex(c: Coord, n: Coord): (i: nat)
    requires Adjacent(c, n)
    ensures i < 4 && Neighbour(c, i) == n
  {
    if n.row < c.row then 0
    else if n.col > c.col then 1
    else if n.row > c.row then 2
    else 3
  }

  /** The four neighbours are four different cells. */
  lemma NeighboursDistinct(c: Coord, i: nat, j: nat)
    requires i < 4 && j < 4 && i != j
    ensures Neighbour(c, i) != Neighbour(c, j)
  {
  }

  datatype Board = Board(rows: nat, cols: nat, cells: seq<seq<Occupancy>>) {

    /** The cell matrix really is `rows` by `cols`. */
    predicate Valid()
    {
      |cells| == rows && forall r :: 0 <= r < rows ==> |cells[r]| == cols
    }

    predicate InBounds(c: Coord)
    {
      0 <= c.row < rows && 0 <= c.col < cols
    }

    function At(c: Coord): Occupancy
      requires Valid() && InBounds(c)
    {
      cells[c.row][c.col]
    }

    /** The board with the cell at `c` changed to `o` and nothing else. */
    function Set(c: Coord, o: Occupancy): (b: Board)
      requires Valid() && InBounds(c)
      ensures b.Valid() && b.rows == rows && b.cols == cols
      ensures b.At(c) == o
      ensures forall d :: b.InBounds(d) && d != c ==> b.At(d) == At(d)
    {
      Board(rows, cols, cells[c.row := cells[c.row][c.col := o]])
    }

    /** Every coordinate of the board. */
    function AllCells(): (s: set<Coord>)
      ensures forall c :: c in s <==> InBounds(c)
    {
      var s := set r, c | 0 <= r < rows && 0 <= c < cols :: Coord(r, c);
      assert forall c :: InBounds(c) ==> Coord(c.row, c.col) in s;
      s
    }
  }

  /** Two well-formed boards of the same size that agree on every cell are equal. */
  lemma SameCells(b1: Board, b2: Board)
    requires b1.Valid() && b2.Valid() && b1.rows == b2.rows && b1.cols == b2.cols
    requires forall c :: b1.InBounds(c) ==> b1.At(c) == b2.At(c)
    ensures b1 == b2
  {
    forall r | 0 <= r < b1.rows ensures b1.cells[r] == b2.cells[r] {
      forall k | 0 <= k < b1.cols ensures b1.cells[r][k] == b2.cells[r][k] {
        assert b1.At(Coord(r, k)) == b2.At(Coord(r, k));
      }
    }
  }

  /** Coordinates of the first `k` columns of row `r`. */
  function RowPrefix(r: int, k: nat): (s: set<Coord>)
    ensures forall x :: x in s <==> x.row == r && 0 <= x.col < k
    ensures |s| == k
  {
    if k == 0 then {}
    else
      var s := RowPrefix(r, k - 1);
      assert Coord(r, k - 1) !in s;
      s + {Coord(r, k - 1)}
  }

  /** Coordinates of the first `n` rows of a board `cols` wide. */
  function TopRows(n: nat, cols: nat): (s: set<Coord>)
    ensures forall x :: x in s <==> 0 <= x.row < n && 0 <= x.col < cols
    ensures |s| == n * cols
  {
    if n == 0 then {}
    else
      var above := TopRows(n - 1, cols);
      var row := RowPrefix(n - 1, cols);
      assert above !! row;
      above + row
  }

  /** A board has exactly `rows * cols` cells. */
  lemma AllCellsSize(b: Board)
    ensures |b.AllCells()| == b.rows * b.cols
  {
    assert b.AllCells() == TopRows(b.rows, b.cols);
  }
}

=== FILE: Lists.dfy ===
/** Sequence helpers: duplicate-freedom and the source's recursive list
    reversal; and the optional value that stands for a possibly-null cell. */
module Lists {

  datatype Option<T> = None | Some(value: T)

  predicate NoDup<T(==)>(s: seq<T>)
  {
    forall i, j :: 0 <= i < j < |s| ==> s[i] != s[j]
  }

  function Elems<T>(s: seq<T>): set<T>
  {
    set x | x in s
  }

  /** A duplicate-free sequence has as many distinct elements as entries. */
  lemma {:induction false} NoDupSize<T>(s: seq<T>)
    requires NoDup(s)
    ensures |Elems(s)| == |s|
  {
    if |s| > 0 {
      NoDupSize(s[1..]);
      assert Elems(s) == Elems(s[1..]) + {s[0]};
      assert s[0] !in Elems(s[1..]);
    } else {
      assert Elems(s) == {};
    }
  }

  /** Putting a new element in front keeps a sequence duplicate-free. */
  lemma PrependNoDup<T>(x: T, s: seq<T>)
    requires NoDup(s) && x !in s
    ensures NoDup([x] + s)
  {
    var r := [x] + s;
    forall i, j | 0 <= i < j < |r| ensures r[i] != r[j] {
      assert r[j] == s[j - 1];
      if i > 0 {
        assert r[i] == s[i - 1];
      }
    }
  }

  function Last<T>(s: seq<T>): T
    requires |s| > 0
  {
    s[|s| - 1]
  }

  /** The source reverses a list by removing its first element, reversing
      the rest and appending the removed element at the end. */
  function ReverseList<T>(s: seq<T>): (r: seq<T>)
    ensures |r| == |s|
    ensures forall i :: 0 <= i < |s| ==> r[i] == s[|s| - 1 - i]
  {
    if |s| == 0 then [] else ReverseList(s[1..]) + [s[0]]
  }

  /** Reversing twice gives back the original list. */
  lemma ReverseTwice<T>(s: seq<T>)
    ensures ReverseList(ReverseList(s)) == s
  {
  }

  /** Reversal keeps the same elements and introduces no duplicates. */
  lemma ReversePreservesNoDup<T>(s: seq<T>)
    requires NoDup(s)
    ensures NoDup(ReverseList(s))
    ensures Elems(ReverseList(s)) == Elems(s)
  {
    var r := ReverseList(s);
    forall x | x in s ensures x in r {
      var i :| 0 <= i < |s| && s[i] == x;
      assert r[|s| - 1 - i] == x;
    }
  }
}

=== FILE: Reach.dfy ===
/** Reference definitions of hop distance on a board, independent of any
    queue: `Within(b, s, k, c)` says a search from `s` can reach `c` in at
    most `k` steps when walls and body cells are never stepped out of, and
    walks are the explicit paths behind it. */
module Reach {
  import opened Grid
  import opened Lists

  /** A cell a search may step out of: on the board and neither wall nor body. */
  predicate Open(b: Board, c: Coord)
    requires b.Valid()
  {
    b.InBounds(c) && !Blocked(b.At(c))
  }

  /** One step of a search: out of open cell `a` onto the board cell `d` next to it. */
  predicate Step(b: Board, a: Coord, d: Coord)
    requires b.Valid()
  {
    Open(b, a) && b.InBounds(d) && Adjacent(a, d)
  }

  /** `c` is at most `k` steps from `s`. */
  ghost predicate Within(b: Board, s: Coord, k: nat, c: Coord)
    requires b.Valid()
  {
    if k == 0 then c == s
    else Within(b, s, k - 1, c) || exists a :: Within(b, s, k - 1, a) && Step(b, a, c)
  }

  /** `c` is exactly `k` steps from `s`: the hop distance from `s` to `c` is `k`. */
  ghost predicate Level(b: Board, s: Coord, k: nat, c: Coord)
    requires b.Valid()
  {
    Within(b, s, k, c) && (k == 0 || !Within(b, s, k - 1, c))
  }

  lemma {:induction false} WithinGrows(b: Board, s: Coord, i: nat, j: nat, c: Coord)
    requires b.Valid() && i <= j && Within(b, s, i, c)
    ensures Within(b, s, j, c)
    decreases j
  {
    if i < j {
      WithinGrows(b, s, i, j - 1, c);
    }
  }

  lemma {:induction false} WithinInBounds(b: Board, s: Coord, k: nat, c: Coord)
    requires b.Valid() && b.InBounds(s) && Within(b, s, k, c)
    ensures b.InBounds(c)
  {
    if k > 0 && Within(b, s, k - 1, c) {
      WithinInBounds(b, s, k - 1, c);
    }
  }

  /** Once a step reaches nothing new, no later step does either. */
  lemma {:induction false} WithinStable(b: Board, s: Coord, L: nat, k: nat)
    requires b.Valid()
    requires forall c :: Within(b, s, L + 1, c) ==> Within(b, s, L, c)
    ensures forall c :: Within(b, s, k, c) ==> Within(b, s, L, c)
  {
    if k <= L {
      forall c | Within(b, s, k, c) ensures Within(b, s, L, c) {
        WithinGrows(b, s, k, L, c);
      }
    } else {
      WithinStable(b, s, L, k - 1);
      forall c | Within(b, s, k, c) ensures Within(b, s, L, c) {
        if !Within(b, s, k - 1, c) {
          var a :| Within(b, s, k - 1, a) && Step(b, a, c);
          assert Within(b, s, L + 1, c);
        }
      }
    }
  }

  /** A path on the board that leaves only open cells: every cell but the
      last is neither wall nor body, and consecutive cells are adjacent. */
  ghost predicate IsWalk(b: Board, p: seq<Coord>)
    requires b.Valid()
  {
    && |p| >= 1
    && (forall i :: 0 <= i < |p| ==> b.InBounds(p[i]))
    && (forall i :: 0 <= i < |p| - 1 ==> !Blocked(b.At(p[i])) && Adjacent(p[i], p[i + 1]))
  }

  ghost predicate WalkFromTo(b: Board, p: seq<Coord>, s: Coord, c: Coord)
    requires b.Valid()
  {
    IsWalk(b, p) && p[0] == s && Last(p) == c
  }

  /** A walk of `n` steps ends at most `n` steps from where it starts. */
  lemma {:induction false} WalkWithin(b: Board, p: seq<Coord>)
    requires b.Valid() && IsWalk(b, p)
    ensures Within(b, p[0], |p| - 1, Last(p))
  {
    if |p| > 1 {
      var q := p[..|p| - 1];
      assert IsWalk(b, q);
      WalkWithin(b, q);
      assert Step(b, Last(q), Last(p));
    }
  }

  /** Every cell at most `k` steps away is the end of a walk of at most `k` steps. */
  lemma {:induction false} WithinHasWalk(b: Board, s: Coord, k: nat, c: Coord) returns (p: seq<Coord>)
    requires b.Valid() && b.InBounds(s) && Within(b, s, k, c)
    ensures WalkFromTo(b, p, s, c) && |p| <= k + 1
  {
    if k == 0 {
      p := [s];
    } else if Within(b, s, k - 1, c) {
      p := WithinHasWalk(b, s, k - 1, c);
    } else {
      var a :| Within(b, s, k - 1, a) && Step(b, a, c);
      var q := WithinHasWalk(b, s, k - 1, a);
      p := q + [c];
      assert p[|q| - 1] == a;
    }
  }

  /** Walked backwards, a walk whose last cell is also open is again a walk. */
  lemma ReverseWalk(b: Board, p: seq<Coord>)
    requires b.Valid() && IsWalk(b, p) && !Blocked(b.At(Last(p)))
    ensures IsWalk(b, ReverseList(p))
  {
    var r := ReverseList(p);
    forall i | 0 <= i < |r| - 1
      ensures !Blocked(b.At(r[i])) && Adjacent(r[i], r[i + 1])
    {
      assert r[i] == p[|p| - 1 - i] && r[i + 1] == p[|p| - 2 - i];
    }
  }

  /** `Level` is hop distance: `c` is exactly `d` steps from `s` iff some
      walk of `d` steps leads there and no walk leading there is shorter. */
  lemma LevelIsShortestWalk(b: Board, s: Coord, d: nat, c: Coord)
    requires b.Valid() && b.InBounds(s)
    ensures Level(b, s, d, c) <==>
              (exists p :: WalkFromTo(b, p, s, c) && |p| == d + 1)
              && (forall p :: WalkFromTo(b, p, s, c) ==> |p| >= d + 1)
  {
    if Level(b, s, d, c) {
      var p := WithinHasWalk(b, s, d, c);
      forall q | WalkFromTo(b, q, s, c) ensures |q| >= d + 1 {
        WalkWithin(b, q);
        if |q| < d + 1 {
          WithinGrows(b, s, |q| - 1, d - 1, c);
        }
      }
      assert |p| == d + 1;
    }
    if (exists p :: WalkFromTo(b, p, s, c) && |p| == d + 1)
       && (forall p :: WalkFromTo(b, p, s, c) ==> |p| >= d + 1) {
      var p :| WalkFromTo(b, p, s, c) && |p| == d + 1;
      WalkWithin(b, p);
      if d > 0 && Within(b, s, d - 1, c) {
        var q := WithinHasWalk(b, s, d - 1, c);
        assert |q| >= d + 1;
      }
    }
  }
}

=== FILE: Search.dfy ===
/** The breadth-first search shared by the two searches of the snake's
    controller: a FIFO queue of cells plus the set of cells already added to
    it, one dequeue at a time. */
module Search {
  import opened Grid
  import opened Lists

  /** The per-search overlay: the queue, and every cell ever added to it. */
  datatype SearchState = SearchState(queue: seq<Coord>, visited: set<Coord>)

  /** What a search stops at: the first food cell, or the first cell next to
      the given snake head. */
  datatype Goal = NearestFood | NextToHead(head: Coord)

  /** The result of one dequeue. */
  datatype Outcome = Found(cell: Coord) | Exhausted | Continue(next: SearchState)

  /** A fresh search from `s`: the overlay is reset, `s` is marked and enqueued. */
  function Start(s: Coord): SearchState
  {
    SearchState([s], {s})
  }

  /** `c` is neither body nor head, and one row or one column (not both)
      away from `head`. */
  function IsCellAdjacentToHead(b: Board, head: Coord, c: Coord): (r: bool)
    requires b.Valid() && b.InBounds(c)
    ensures r <==> b.At(c) != Body && b.At(c) != Head && Adjacent(c, head)
  {
    if b.At(c) == Body || b.At(c) == Head then false
    else
      var checkRow := Abs(c.row - head.row) == 1 && Abs(c.col - head.col) == 0;
      var checkColumn := Abs(c.row - head.row) == 0 && Abs(c.col - head.col) == 1;
      checkRow || checkColumn
  }

  predicate IsGoal(b: Board, goal: Goal, c: Coord)
    requires b.Valid() && b.InBounds(c)
  {
    match goal
    case NearestFood => b.At(c) == Food
    case NextToHead(head) => IsCellAdjacentToHead(b, head, c)
  }

  /** On the board and not yet added to the search. */
  function IsCellValid(b: Board, visited: set<Coord>, c: Coord): (r: bool)
    ensures r <==> b.InBounds(c) && c !in visited
  {
    if c.row < 0 || c.col < 0 || c.row >= b.rows || c.col >= b.cols then false
    else c !in visited
  }

  /** The neighbours of `c` from scan direction `i` on that lie on the board
      and are not in `visited`, in scan order: a reference filter, checked
      against the marks as they were before the scan began. */
  function ScanFrom(b: Board, visited: set<Coord>, c: Coord, i: nat): seq<Coord>
    requires i <= 4
    decreases 4 - i
  {
    if i == 4 then []
    else
      var n := Neighbour(c, i);
      (if b.InBounds(n) && n !in visited then [n] else []) + ScanFrom(b, visited, c, i + 1)
  }

  /** The filter yields exactly the unmarked board neighbours from direction `i` on. */
  lemma {:induction false} ScanFromMembers(b: Board, visited: set<Coord>, c: Coord, i: nat)
    requires i <= 4
    ensures forall x :: x in ScanFrom(b, visited, c, i) <==>
                          b.InBounds(x) && Adjacent(c, x) && x !in visited && ScanIndex(c, x) >= i
    decreases 4 - i
  {
    if i < 4 {
      ScanFromMembers(b, visited, c, i + 1);
      var n := Neighbour(c, i);
      assert forall x :: Adjacent(c, x) && ScanIndex(c, x) == i ==> x == n;
      var s := ScanFrom(b, visited, c, i);
      var t := ScanFrom(b, visited, c, i + 1);
      if b.InBounds(n) && n !in visited {
        assert s == [n] + t;
      } else {
        assert s == t;
      }
    }
  }

  /** The filter lists each cell once. */
  lemma {:induction false} ScanFromNoDup(b: Board, visited: set<Coord>, c: Coord, i: nat)
    requires i <= 4
    ensures NoDup(ScanFrom(b, visited, c, i))
    decreases 4 - i
  {
    if i < 4 {
      ScanFromNoDup(b, visited, c, i + 1);
      ScanFromMembers(b, visited, c, i + 1);
      var n := Neighbour(c, i);
      var s := ScanFrom(b, visited, c, i);
      var t := ScanFrom(b, visited, c, i + 1);
      if b.InBounds(n) && n !in visited {
        assert s == [n] + t;
        assert n !in t;
        PrependNoDup(n, t);
      } else {
        assert s == t;
      }
    }
  }

  /** Marking a cell the rest of the scan never looks at leaves the rest of the scan unchanged. */
  lemma {:induction false} ScanFromIgnores(b: Board, visited: set<Coord>, c: Coord, i: nat, n: Coord)
    requires i <= 4
    requires forall j :: i <= j < 4 ==> Neighbour(c, j) != n
    ensures ScanFrom(b, visited + {n}, c, i) == ScanFrom(b, visited, c, i)
    decreases 4 - i
  {
    if i < 4 {
      ScanFromIgnores(b, visited, c, i + 1, n);
    }
  }

  /** The neighbour scan from direction `i` on, as the source's loop runs
      it: each neighbour is checked against the marks as updated by the
      earlier directions, and enqueued and marked if it is on the board and
      unmarked. The cells enqueued are those the reference filter keeps. */
  function ScanNeighbours(b: Board, visited: set<Coord>, c: Coord, i: nat): (added: seq<Coord>)
    requires i <= 4
    ensures added == ScanFrom(b, visited, c, i)
    decreases 4 - i
  {
    if i == 4 then []
    else
      var n := Neighbour(c, i);
      if IsCellValid(b, visited, n) && n !in visited then
        forall j | i + 1 <= j < 4 ensures Neighbour(c, j) != n {
          NeighboursDistinct(c, i, j);
        }
        ScanFromIgnores(b, visited, c, i + 1, n);
        [n] + ScanNeighbours(b, visited + {n}, c, i + 1)
      else
        ScanNeighbours(b, visited, c, i + 1)
  }

  /** The full neighbour scan of `c`, North, East, South, West: the queue
      keeps its cells and gains, each once, exactly the board neighbours of
      `c` not yet marked, and the marks grow by exactly those. */
  function AddCellToQueue(b: Board, st: SearchState, c: Coord): (r: SearchState)
    ensures Enqueued(b, st, c, r)
  {
    var added := ScanNeighbours(b, st.visited, c, 0);
    ScanFromMembers(b, st.visited, c, 0);
    ScanFromNoDup(b, st.visited, c, 0);
    var r := SearchState(st.queue + added, st.visited + Elems(added));
    assert r.queue[|st.queue|..] == added;
    r
  }

  /** `next` is `st` with the board neighbours of `c` that were not yet
      marked appended to the queue, each once, and marked. */
  ghost predicate Enqueued(b: Board, st: SearchState, c: Coord, next: SearchState)
  {
    && |next.queue| >= |st.queue| && next.queue[..|st.queue|] == st.queue
    && (forall x :: x in next.queue[|st.queue|..] <==> b.InBounds(x) && Adjacent(c, x) && x !in st.visited)
    && NoDup(next.queue[|st.queue|..])
    && next.visited == st.visited + Elems(next.queue[|st.queue|..])
  }

  /** The search overlay is consistent: no cell is queued twice, every queued
      cell is marked, and only board cells are marked. */
  predicate SearchInv(b: Board, st: SearchState)
  {
    && NoDup(st.queue)
    && (forall i :: 0 <= i < |st.queue| ==> st.queue[i] in st.visited)
    && (forall c :: c in st.visited ==> b.InBounds(c))
  }

  /** Work left: queued cells plus cells never marked. Every dequeue lowers it by one. */
  function Potential(b: Board, st: SearchState): nat
  {
    |st.queue| + |b.AllCells() - st.visited|
  }

  lemma MarkNew(A: set<Coord>, V: set<Coord>, N: set<Coord>)
    requires N <= A && N !! V
    ensures |A - (V + N)| == |A - V| - |N|
  {
    assert A - V == (A - (V + N)) + N;
    assert (A - (V + N)) !! N;
  }

  /** One iteration of the search loop: dequeue a cell; skip it if it is wall
      or body; stop if it is the goal; otherwise scan its neighbours. */
  function SearchStep(b: Board, goal: Goal, st: SearchState): (r: Outcome)
    requires b.Valid() && SearchInv(b, st)
    ensures r.Exhausted? <==> |st.queue| == 0
    ensures r.Found? ==> r.cell == st.queue[0] && b.InBounds(r.cell)
                         && !Blocked(b.At(r.cell)) && IsGoal(b, goal, r.cell)
    ensures r.Continue? ==>
              && SearchInv(b, r.next)
              && Potential(b, r.next) + 1 == Potential(b, st)
              && st.visited <= r.next.visited
              && |r.next.queue| >= |st.queue| - 1
              && r.next.queue[..|st.queue| - 1] == st.queue[1..]
              && (forall k :: |st.queue| - 1 <= k < |r.next.queue| ==> r.next.queue[k] !in st.visited)
  {
    if |st.queue| == 0 then Exhausted
    else
      var current := st.queue[0];
      var rest := SearchState(st.queue[1..], st.visited);
      if Blocked(b.At(current)) then
        assert b.AllCells() - st.visited == b.AllCells() - rest.visited;
        Continue(rest)
      else if IsGoal(b, goal, current) then Found(current)
      else
        var next := AddCellToQueue(b, rest, current);
        ExpandStep(b, st, current, next);
        Continue(next)
  }

  /** Expanding the first queued cell keeps the search consistent and
      lowers the work left by one. */
  lemma ExpandStep(b: Board, st: SearchState, current: Coord, next: SearchState)
    requires b.Valid() && SearchInv(b, st) && |st.queue| > 0 && current == st.queue[0]
    requires Enqueued(b, SearchState(st.queue[1..], st.visited), current, next)
    ensures SearchInv(b, next)
    ensures Potential(b, next) + 1 == Potential(b, st)
    ensures st.visited <= next.visited
    ensures |next.queue| >= |st.queue| - 1
    ensures next.queue[..|st.queue| - 1] == st.queue[1..]
    ensures forall k :: |st.queue| - 1 <= k < |next.queue| ==> next.queue[k] !in st.visited
  {
    ExpandInv(b, st, current, next);
    ExpandPotential(b, st, current, next);
  }

  lemma ExpandInv(b: Board, st: SearchState, current: Coord, next: SearchState)
    requires b.Valid() && SearchInv(b, st) && |st.queue| > 0
    requires Enqueued(b, SearchState(st.queue[1..], st.visited), current, next)
    ensures SearchInv(b, next)
  {
    var rest := st.queue[1..];
    var added := next.queue[|rest|..];
    assert next.queue == rest + added;
    ExpandNoDup(b, rest, added, st.visited);
    forall k | 0 <= k < |next.queue| ensures next.queue[k] in next.visited {
      if k >= |rest| {
        assert next.queue[k] == added[k - |rest|];
      }
    }
  }

  lemma ExpandPotential(b: Board, st: SearchState, current: Coord, next: SearchState)
    requires b.Valid() && SearchInv(b, st) && |st.queue| > 0
    requires Enqueued(b, SearchState(st.queue[1..], st.visited), current, next)
    ensures Potential(b, next) + 1 == Potential(b, st)
  {
    var added := next.queue[|st.queue| - 1..];
    assert |next.queue| == |st.queue| - 1 + |added|;
    NoDupSize(added);
    MarkNew(b.AllCells(), st.visited, Elems(added));
  }

  lemma ExpandNoDup(b: Board, rest: seq<Coord>, added: seq<Coord>, visited: set<Coord>)
    requires NoDup(rest) && NoDup(added)
    requires forall i :: 0 <= i < |rest| ==> rest[i] in visited
    requires forall x :: x in added ==> x !in visited
    ensures NoDup(rest + added)
  {
    var q := rest + added;
    forall k1, k2 | 0 <= k1 < k2 < |q| ensures q[k1] != q[k2] {
      if k1 < |rest| <= k2 {
        assert q[k1] in visited && q[k2] in added;
      }
    }
  }

  /** Runs the search loop until it finds a goal cell or the queue empties. */
  function Bfs(b: Board, goal: Goal, st: SearchState): (r: Option<Coord>)
    requires b.Valid() && SearchInv(b, st)
    ensures r.Some? ==> b.InBounds(r.value) && !Blocked(b.At(r.value)) && IsGoal(b, goal, r.value)
    decreases Potential(b, st)
  {
    match SearchStep(b, goal, st)
    case Found(c) => Some(c)
    case Exhausted => None
    case Continue(next) => Bfs(b, goal, next)
  }

  /** Dequeuing a wall or body cell only drops it from the queue. */
  lemma BfsSkips(b: Board, goal: Goal, st: SearchState)
    requires b.Valid() && SearchInv(b, st) && |st.queue| > 0 && Blocked(b.At(st.queue[0]))
    ensures SearchInv(b, SearchState(st.queue[1..], st.visited))
    ensures Potential(b, SearchState(st.queue[1..], st.visited)) < Potential(b, st)
    ensures Bfs(b, goal, st) == Bfs(b, goal, SearchState(st.queue[1..], st.visited))
  {
    assert SearchStep(b, goal, st) == Continue(SearchState(st.queue[1..], st.visited));
  }

  /** Dequeuing an open cell that is not the goal enqueues its neighbours. */
  lemma BfsExpands(b: Board, goal: Goal, st: SearchState)
    requires b.Valid() && SearchInv(b, st) && |st.queue| > 0
    requires !Blocked(b.At(st.queue[0])) && !IsGoal(b, goal, st.queue[0])
    ensures var next := AddCellToQueue(b, SearchState(st.queue[1..], st.visited), st.queue[0]);
            SearchInv(b, next) && Potential(b, next) < Potential(b, st) && Bfs(b, goal, st) == Bfs(b, goal, next)
  {
    assert SearchStep(b, goal, st) == Continue(AddCellToQueue(b, SearchState(st.queue[1..], st.visited), st.queue[0]));
  }

  /** The number of cells the search loop dequeues before it stops. */
  function Dequeues(b: Board, goal: Goal, st: SearchState): (n: nat)
    requires b.Valid() && SearchInv(b, st)
    ensures n <= Potential(b, st)
    decreases Potential(b, st)
  {
    match SearchStep(b, goal, st)
    case Found(_) => 1
    case Exhausted => 0
    case Continue(next) => 1 + Dequeues(b, goal, next)
  }

  /** A search started from a board cell dequeues at most `rows * cols` cells. */
  lemma SearchBounded(b: Board, goal: Goal, s: Coord)
    requires b.Valid() && b.InBounds(s)
    ensures SearchInv(b, Start(s))
    ensures Dequeues(b, goal, Start(s)) <= b.rows * b.cols
  {
    AllCellsSize(b);
    assert b.AllCells() == (b.AllCells() - {s}) + {s};
  }
}

=== FILE: SearchProof.dfy ===
/** Why the search loop finds a nearest goal: the queue always holds the
    cells of one distance from the start followed by cells one step
    farther, and a cell is marked exactly when it is within the current
    distance or next to a cell already dequeued. */
module SearchProof {
  import opened Grid
  import opened Lists
  import opened Reach
  import opened Search

  /** A cell the search stops at: open, and a goal. */
  ghost predicate OpenGoal(b: Board, goal: Goal, c: Coord)
    requires b.Valid()
  {
    Open(b, c) && IsGoal(b, goal, c)
  }

  /** `c` is a goal at distance `d` from `s` and no goal is closer. */
  ghost predicate NearestGoal(b: Board, goal: Goal, s: Coord, d: nat, c: Coord)
    requires b.Valid()
  {
    && Level(b, s, d, c)
    && OpenGoal(b, goal, c)
    && (d == 0 || forall x :: Within(b, s, d - 1, x) ==> !OpenGoal(b, goal, x))
  }

  /** No goal can be reached from `s` at all. */
  ghost predicate NoGoalReachable(b: Board, goal: Goal, s: Coord)
    requires b.Valid()
  {
    forall k: nat, x :: Within(b, s, k, x) ==> !OpenGoal(b, goal, x)
  }

  /** Dequeued already: within distance `L` and no longer pending. */
  ghost predicate Settled(b: Board, s: Coord, L: nat, pending: seq<Coord>, e: Coord)
    requires b.Valid()
  {
    Within(b, s, L, e) && e !in pending
  }

  /** What the marks should be: everything within distance `L`, and every
      board cell one step from a dequeued cell. */
  ghost predicate Reached(b: Board, s: Coord, L: nat, pending: seq<Coord>, c: Coord)
    requires b.Valid()
  {
    Within(b, s, L, c) || exists e :: Settled(b, s, L, pending, e) && Step(b, e, c)
  }

  /** The loop invariant of the search at distance `L`, with the first `a`
      queued cells still at distance `L`. */
  ghost predicate Layered(b: Board, goal: Goal, s: Coord, st: SearchState, L: nat, a: nat)
    requires b.Valid()
  {
    && SearchInv(b, st) && b.InBounds(s)
    && a <= |st.queue|
    && (forall i :: 0 <= i < a ==> Level(b, s, L, st.queue[i]))
    && (forall i :: a <= i < |st.queue| ==> Level(b, s, L + 1, st.queue[i]))
    && (forall c :: c in st.visited <==> Reached(b, s, L, st.queue[..a], c))
    && (forall e :: Settled(b, s, L, st.queue[..a], e) ==> !OpenGoal(b, goal, e))
    && (forall c :: c in st.visited && !Within(b, s, L, c) ==> c in st.queue[a..])
  }

  lemma LayeredStart(b: Board, goal: Goal, s: Coord)
    requires b.Valid() && b.InBounds(s)
    ensures Layered(b, goal, s, Start(s), 0, 1)
  {
    var st := Start(s);
    assert st.queue[..1] == [s];
    assert forall e :: !Settled(b, s, 0, [s], e);
  }

  /** When every cell of distance `L` has been dequeued, the marks are
      exactly the cells within `L + 1`, and those not queued are within `L`. */
  lemma LayerComplete(b: Board, goal: Goal, s: Coord, st: SearchState, L: nat)
    requires b.Valid() && Layered(b, goal, s, st, L, 0)
    ensures forall c :: c in st.visited <==> Within(b, s, L + 1, c)
    ensures forall e :: Within(b, s, L + 1, e) && e !in st.queue ==> Within(b, s, L, e)
  {
    assert st.queue[..0] == [];
    assert st.queue[0..] == st.queue;
    forall c ensures c in st.visited <==> Within(b, s, L + 1, c) {
      if Within(b, s, L + 1, c) && !Within(b, s, L, c) {
        var e :| Within(b, s, L, e) && Step(b, e, c);
        assert Settled(b, s, L, [], e);
      }
    }
  }

  /** Moving on to the next distance once the current one is used up. */
  lemma LayeredRelevel(b: Board, goal: Goal, s: Coord, st: SearchState, L: nat)
    requires b.Valid() && Layered(b, goal, s, st, L, 0)
    ensures Layered(b, goal, s, st, L + 1, |st.queue|)
  {
    var q := st.queue;
    LayerComplete(b, goal, s, st, L);
    assert q[..|q|] == q;
    forall c ensures c in st.visited <==> Reached(b, s, L + 1, q, c) {
      forall e | Settled(b, s, L + 1, q, e) && Step(b, e, c) ensures Within(b, s, L + 1, c) {
        assert Within(b, s, L, e);
      }
    }
    forall e | Settled(b, s, L + 1, q, e) ensures !OpenGoal(b, goal, e) {
      assert Within(b, s, L, e);
      assert Settled(b, s, L, q[..0], e);
    }
  }

  /** With no cell queued and the current distance used up, nothing farther
      is reachable, and no goal was passed. */
  lemma LayeredExhausted(b: Board, goal: Goal, s: Coord, st: SearchState, L: nat)
    requires b.Valid() && Layered(b, goal, s, st, L, 0) && |st.queue| == 0
    ensures NoGoalReachable(b, goal, s)
  {
    LayerComplete(b, goal, s, st, L);
    WithinStable(b, s, L, 0);
    forall k: nat, x | Within(b, s, k, x) ensures !OpenGoal(b, goal, x) {
      WithinStable(b, s, L, k);
      assert Settled(b, s, L, st.queue[..0], x);
    }
  }

  /** Dequeuing the first pending cell settles it and nothing else. */
  lemma SettledGains(b: Board, s: Coord, L: nat, p: seq<Coord>)
    requires b.Valid() && |p| > 0 && NoDup(p) && Within(b, s, L, p[0])
    ensures forall e :: Settled(b, s, L, p[1..], e) <==> Settled(b, s, L, p, e) || e == p[0]
  {
    forall e ensures Settled(b, s, L, p[1..], e) <==> Settled(b, s, L, p, e) || e == p[0] {
      if e in p && e != p[0] {
        var i :| 0 <= i < |p| && p[i] == e;
        assert p[1..][i - 1] == e;
      }
    }
  }

  /** Dequeuing a wall or body cell of distance `L`: it is settled, and as
      it is not open it adds no cell to the marks. */
  lemma LayeredSkip(b: Board, goal: Goal, s: Coord, st: SearchState, L: nat, a: nat)
    requires b.Valid() && Layered(b, goal, s, st, L, a) && a > 0
    requires Blocked(b.At(st.queue[0]))
    ensures Layered(b, goal, s, SearchState(st.queue[1..], st.visited), L, a - 1)
  {
    var q := st.queue;
    var q' := q[1..];
    var cur := q[0];
    assert q'[..a - 1] == q[..a][1..];
    assert q'[a - 1..] == q[a..];
    SettledGains(b, s, L, q[..a]);
    forall c ensures Reached(b, s, L, q'[..a - 1], c) <==> Reached(b, s, L, q[..a], c) {
      if Reached(b, s, L, q'[..a - 1], c) && !Within(b, s, L, c) {
        var e :| Settled(b, s, L, q'[..a - 1], e) && Step(b, e, c);
        assert e != cur;
      }
    }
  }

  /** The cells a dequeued open cell of distance `L` enqueues are one step farther. */
  lemma AddedLevels(b: Board, goal: Goal, s: Coord, st: SearchState, L: nat, a: nat, next: SearchState)
    requires b.Valid() && Layered(b, goal, s, st, L, a) && a > 0
    requires !Blocked(b.At(st.queue[0]))
    requires Enqueued(b, SearchState(st.queue[1..], st.visited), st.queue[0], next)
    ensures forall k :: |st.queue| - 1 <= k < |next.queue| ==> Level(b, s, L + 1, next.queue[k])
  {
    forall k | |st.queue| - 1 <= k < |next.queue| ensures Level(b, s, L + 1, next.queue[k]) {
      var n := next.queue[k];
      assert n in next.queue[|st.queue| - 1..];
      assert Step(b, st.queue[0], n);
      assert n !in st.visited;
    }
  }

  /** After the dequeue the queue again holds distance `L` cells, then
      distance `L + 1` cells. */
  lemma ExpandLevels(b: Board, goal: Goal, s: Coord, st: SearchState, L: nat, a: nat, next: SearchState)
    requires b.Valid() && Layered(b, goal, s, st, L, a) && a > 0
    requires !Blocked(b.At(st.queue[0]))
    requires Enqueued(b, SearchState(st.queue[1..], st.visited), st.queue[0], next)
    ensures forall i :: 0 <= i < a - 1 ==> Level(b, s, L, next.queue[i])
    ensures forall i :: a - 1 <= i < |next.queue| ==> Level(b, s, L + 1, next.queue[i])
  {
    var q := st.queue;
    var q' := next.queue;
    AddedLevels(b, goal, s, st, L, a, next);
    forall i | a - 1 <= i < |q| - 1 ensures Level(b, s, L + 1, q'[i]) {
      assert q'[i] == q[i + 1];
    }
    forall i | 0 <= i < a - 1 ensures Level(b, s, L, q'[i]) {
      assert q'[i] == q[i + 1];
    }
  }

  /** After a dequeued open cell of distance `L` enqueues its unmarked
      neighbours, the marks are again what `Reached` says. */
  lemma ExpandMarks(b: Board, goal: Goal, s: Coord, st: SearchState, L: nat, a: nat, next: SearchState)
    requires b.Valid() && Layered(b, goal, s, st, L, a) && a > 0
    requires !Blocked(b.At(st.queue[0]))
    requires Enqueued(b, SearchState(st.queue[1..], st.visited), st.queue[0], next)
    ensures forall c :: c in next.visited <==> Reached(b, s, L, next.queue[..a - 1], c)
  {
    var q := st.queue;
    var cur := q[0];
    var q' := next.queue;
    var added := q'[|q| - 1..];
    assert q' == q[1..] + added;
    DequeueSlices(q, added, a);
    SettledGains(b, s, L, q[..a]);
    forall c ensures c in next.visited <==> Reached(b, s, L, q'[..a - 1], c) {
      if c in added {
        assert Step(b, cur, c) && Settled(b, s, L, q'[..a - 1], cur);
      } else if Step(b, cur, c) {
        assert c in st.visited;
      } else if Reached(b, s, L, q'[..a - 1], c) && !Within(b, s, L, c) {
        var e :| Settled(b, s, L, q'[..a - 1], e) && Step(b, e, c);
        assert e != cur;
        assert Reached(b, s, L, q[..a], c);
      }
    }
  }

  /** How the pending prefix and the tail of the queue move when the first
      cell is dequeued and `added` is enqueued. */
  lemma DequeueSlices(q: seq<Coord>, added: seq<Coord>, a: nat)
    requires 0 < a <= |q|
    ensures (q[1..] + added)[..a - 1] == q[..a][1..]
    ensures (q[1..] + added)[a - 1..] == q[a..] + added
  {
  }

  /** The marks outside distance `L` stay among the queued cells of distance `L + 1`. */
  lemma ExpandTail(b: Board, goal: Goal, s: Coord, st: SearchState, L: nat, a: nat, next: SearchState)
    requires b.Valid() && Layered(b, goal, s, st, L, a) && a > 0
    requires Enqueued(b, SearchState(st.queue[1..], st.visited), st.queue[0], next)
    ensures forall c :: c in next.visited && !Within(b, s, L, c) ==> c in next.queue[a - 1..]
  {
    var q := st.queue;
    var added := next.queue[|q| - 1..];
    assert next.queue == q[1..] + added;
    DequeueSlices(q, added, a);
    forall c | c in next.visited && !Within(b, s, L, c) ensures c in next.queue[a - 1..] {
      if c !in added {
        assert c in q[a..];
      }
    }
  }

  /** The invariant, conjunct by conjunct. */
  lemma LayeredIntro(b: Board, goal: Goal, s: Coord, st: SearchState, L: nat, a: nat)
    requires b.Valid()
    requires SearchInv(b, st) && b.InBounds(s) && a <= |st.queue|
    requires forall i :: 0 <= i < a ==> Level(b, s, L, st.queue[i])
    requires forall i :: a <= i < |st.queue| ==> Level(b, s, L + 1, st.queue[i])
    requires forall c :: c in st.visited <==> Reached(b, s, L, st.queue[..a], c)
    requires forall e :: Settled(b, s, L, st.queue[..a], e) ==> !OpenGoal(b, goal, e)
    requires forall c :: c in st.visited && !Within(b, s, L, c) ==> c in st.queue[a..]
    ensures Layered(b, goal, s, st, L, a)
  {
  }

  /** The dequeued cell was not a goal, so the settled cells still hold none. */
  lemma ExpandSettled(b: Board, goal: Goal, s: Coord, st: SearchState, L: nat, a: nat, next: SearchState)
    requires b.Valid() && Layered(b, goal, s, st, L, a) && a > 0
    requires !IsGoal(b, goal, st.queue[0])
    requires Enqueued(b, SearchState(st.queue[1..], st.visited), st.queue[0], next)
    ensures forall e :: Settled(b, s, L, next.queue[..a - 1], e) ==> !OpenGoal(b, goal, e)
  {
    var q := st.queue;
    DequeueSlices(q, next.queue[|q| - 1..], a);
    SettledGains(b, s, L, q[..a]);
  }

  /** Dequeuing an open, non-goal cell of distance `L`: it becomes settled
      and the invariant holds again with one fewer pending cell. */
  lemma LayeredExpand(b: Board, goal: Goal, s: Coord, st: SearchState, L: nat, a: nat, next: SearchState)
    requires b.Valid() && Layered(b, goal, s, st, L, a) && a > 0
    requires !Blocked(b.At(st.queue[0])) && !IsGoal(b, goal, st.queue[0])
    requires Enqueued(b, SearchState(st.queue[1..], st.visited), st.queue[0], next)
    ensures Layered(b, goal, s, next, L, a - 1)
  {
    ExpandInv(b, st, st.queue[0], next);
    ExpandLevels(b, goal, s, st, L, a, next);
    ExpandMarks(b, goal, s, st, L, a, next);
    ExpandTail(b, goal, s, st, L, a, next);
    ExpandSettled(b, goal, s, st, L, a, next);
    LayeredIntro(b, goal, s, next, L, a - 1);
  }

  /** A goal dequeued at distance `L` is a nearest one: every cell closer
      has been dequeued already and was not a goal. */
  lemma LayeredFound(b: Board, goal: Goal, s: Coord, st: SearchState, L: nat, a: nat)
    requires b.Valid() && Layered(b, goal, s, st, L, a) && a > 0
    requires OpenGoal(b, goal, st.queue[0])
    ensures NearestGoal(b, goal, s, L, st.queue[0])
  {
    var q := st.queue;
    if L > 0 {
      forall x | Within(b, s, L - 1, x) ensures !OpenGoal(b, goal, x) {
        WithinGrows(b, s, L - 1, L, x);
        forall i | 0 <= i < a ensures q[i] != x {
          assert Level(b, s, L, q[i]);
        }
        assert Settled(b, s, L, q[..a], x);
      }
    }
  }

  /** What a search from `s` may answer: a nearest goal, or nothing when
      no goal can be reached. */
  ghost predicate SearchAnswers(b: Board, goal: Goal, s: Coord, r: Option<Coord>)
    requires b.Valid()
  {
    && (r.Some? ==> exists d :: NearestGoal(b, goal, s, d, r.value))
    && (r.None? ==> NoGoalReachable(b, goal, s))
  }

  /** A search whose queue has run dry has found that no goal is reachable. */
  lemma LayeredEmpty(b: Board, goal: Goal, s: Coord, st: SearchState, L: nat, a: nat)
    requires b.Valid() && Layered(b, goal, s, st, L, a) && |st.queue| == 0
    ensures SearchAnswers(b, goal, s, Bfs(b, goal, st))
  {
    assert Bfs(b, goal, st) == None;
    LayeredExhausted(b, goal, s, st, L);
  }

  /** A search that dequeues an open goal answers with a nearest goal. */
  lemma LayeredStop(b: Board, goal: Goal, s: Coord, st: SearchState, L: nat, a: nat)
    requires b.Valid() && Layered(b, goal, s, st, L, a) && a > 0
    requires OpenGoal(b, goal, st.queue[0])
    ensures SearchAnswers(b, goal, s, Bfs(b, goal, st))
  {
    assert Bfs(b, goal, st) == Some(st.queue[0]);
    LayeredFound(b, goal, s, st, L, a);
  }

  /** Dequeuing a cell that is not an open goal keeps the invariant, lowers
      the work left and does not change the answer. */
  lemma LayeredAdvance(b: Board, goal: Goal, s: Coord, st: SearchState, L: nat, a: nat) returns (next: SearchState)
    requires b.Valid() && Layered(b, goal, s, st, L, a) && a > 0
    requires !OpenGoal(b, goal, st.queue[0])
    ensures Layered(b, goal, s, next, L, a - 1)
    ensures Potential(b, next) < Potential(b, st)
    ensures Bfs(b, goal, st) == Bfs(b, goal, next)
  {
    var q := st.queue;
    if Blocked(b.At(q[0])) {
      next := SearchState(q[1..], st.visited);
      BfsSkips(b, goal, st);
      LayeredSkip(b, goal, s, st, L, a);
    } else {
      next := AddCellToQueue(b, SearchState(q[1..], st.visited), q[0]);
      BfsExpands(b, goal, st);
      LayeredExpand(b, goal, s, st, L, a, next);
    }
  }

  /** The search loop, run from a state satisfying the invariant, returns a
      nearest goal if any is reachable and nothing otherwise. */
  lemma {:induction false} LayeredResult(b: Board, goal: Goal, s: Coord, st: SearchState, L: nat, a: nat)
    requires b.Valid() && Layered(b, goal, s, st, L, a)
    ensures SearchAnswers(b, goal, s, Bfs(b, goal, st))
    decreases Potential(b, st), if a == 0 then 1 else 0, 2
  {
    if |st.queue| == 0 {
      LayeredEmpty(b, goal, s, st, L, a);
    } else if a == 0 {
      LayeredRelevel(b, goal, s, st, L);
      LayeredResult(b, goal, s, st, L + 1, |st.queue|);
    } else {
      LayeredDequeue(b, goal, s, st, L, a);
    }
  }

  /** ... and so does it from a state whose current layer is not yet done. */
  lemma {:induction false} LayeredDequeue(b: Board, goal: Goal, s: Coord, st: SearchState, L: nat, a: nat)
    requires b.Valid() && Layered(b, goal, s, st, L, a) && a > 0
    ensures SearchAnswers(b, goal, s, Bfs(b, goal, st))
    decreases Potential(b, st), 0, 1
  {
    if OpenGoal(b, goal, st.queue[0]) {
      LayeredStop(b, goal, s, st, L, a);
    } else {
      var next := LayeredAdvance(b, goal, s, st, L, a);
      LayeredContinue(b, goal, s, st, L, a, next);
    }
  }

  /** ... because the state after the dequeue answers the same. */
  lemma {:induction false} LayeredContinue(b: Board, goal: Goal, s: Coord, st: SearchState, L: nat, a: nat, next: SearchState)
    requires b.Valid() && SearchInv(b, st) && a > 0 && Layered(b, goal, s, next, L, a - 1)
    requires Potential(b, next) < Potential(b, st) && Bfs(b, goal, st) == Bfs(b, goal, next)
    ensures SearchAnswers(b, goal, s, Bfs(b, goal, st))
    decreases Potential(b, st), 0, 0
  {
    LayeredResult(b, goal, s, next, L, a - 1);
  }

  /** A search from board cell `s` returns a goal at the least distance from
      `s`, and returns nothing exactly when no goal can be reached. */
  lemma BfsFindsNearestGoal(b: Board, goal: Goal, s: Coord)
    requires b.Valid() && b.InBounds(s)
    ensures SearchInv(b, Start(s))
    ensures Bfs(b, goal, Start(s)).Some? ==> exists d :: NearestGoal(b, goal, s, d, Bfs(b, goal, Start(s)).value)
    ensures Bfs(b, goal, Start(s)).None? <==> NoGoalReachable(b, goal, s)
  {
    LayeredStart(b, goal, s);
    LayeredResult(b, goal, s, Start(s), 0, 1);
    var r := Bfs(b, goal, Start(s));
    if r.Some? {
      var d :| NearestGoal(b, goal, s, d, r.value);
      assert Within(b, s, d, r.value) && OpenGoal(b, goal, r.value);
    }
  }

  /** A goal within `k` steps makes the search succeed, at distance at most `k`. */
  lemma NearestWithin(b: Board, goal: Goal, s: Coord, k: nat, w: Coord) returns (d: nat)
    requires b.Valid() && b.InBounds(s) && Within(b, s, k, w) && OpenGoal(b, goal, w)
    ensures Bfs(b, goal, Start(s)).Some?
    ensures d <= k && NearestGoal(b, goal, s, d, Bfs(b, goal, Start(s)).value)
  {
    BfsFindsNearestGoal(b, goal, s);
    assert !NoGoalReachable(b, goal, s);
    var n := Bfs(b, goal, Start(s)).value;
    d :| NearestGoal(b, goal, s, d, n);
    NearestIsNearest(b, goal, s, d, n, k, w);
  }

  /** No goal lies closer than a nearest goal. */
  lemma NearestIsNearest(b: Board, goal: Goal, s: Coord, d: nat, n: Coord, k: nat, w: Coord)
    requires b.Valid() && NearestGoal(b, goal, s, d, n) && Within(b, s, k, w) && OpenGoal(b, goal, w)
    ensures d <= k
  {
    if d > k {
      WithinGrows(b, s, k, d - 1, w);
    }
  }
}
